=== FILE: README.md ===
# SN/X simulator — a verified Dafny model

SN/X is a small teaching architecture. It has four registers (`$0`..`$3`), 128 words of memory, a program counter and a running flag. The simulator reads an assembly program as text. `parse_code` turns it into a list of instructions and a label table. `SNXSimulator.step()` then executes one instruction at a time and prints one trace line per executed instruction.

This project models that core in Dafny and proves properties about it:

- `word.dfy` (module `Words`) covers the 16-bit word helpers of `snx/word.py`: masking, the signed reading and the sign test.
- `text.dfy` (module `Text`) holds the Python string operations the parser relies on, written out over ASCII text. These are `strip`, `split`, `upper`, `re.split(r'[,\s]+', …)` and `int(…)`.
- `parser.dfy` (module `Parser`) models the `Instruction` record and `parse_code`.
  - `ParseLine` is a function that gives one line's contribution.
  - `Assemble` folds the lines into the result. Together they are the reference definition.
  - `ParseCode` is the loop of the source, proved equal to that definition. `FeedLine` is one pass of its body.
  - The lemmas cover labels, blank lines, source order and the shape of every instruction.
- `machine.dfy` (module `Machine`) is `step()` as a function on machine states (`Exec`). It also holds the operand decoding (`_get_reg_idx`, `_calc_effective_addr`), one function per opcode and a fuel-bounded driver loop (`RunFrom`).
  - Any way the source can raise is the single outcome `Fault`. That includes a bad list index, a missing label, too few operands and a register token that is not a number.
- `simulator.dfy` (module `Simulator`) is the `SNXSimulator` object.
  - Registers and memory are arrays that are updated in place. The pc and the running flag are fields. The parsed program is fixed at construction.
  - Every method is proved against the functions of `Machine`: `Step` against `Exec`, and `Run` against `RunFrom`.
- `wrappers.dfy` holds the `Option` type.

`main.py:15-38` (`_parse_code`) is the same algorithm as `snx/parser.py:14-39` (`parse_code`). Both are modelled once, by `Parser.ParseCode`, and the constructor calls it.

Behaviour of the code that a reader of the SN/X architecture might not expect, and that the model keeps:

- **No 16-bit masking.** `main.py` never calls `snx/word.py`. Registers and memory hold unbounded Python integers, `ADD` does not wrap and `SLT` compares the raw integers rather than signed 16-bit readings. The model does the same. The word helpers are modelled and proved on their own.
- **Negative addresses wrap.** Python list indexing accepts −128..−1 and counts from the end, so an `LD`/`ST` address of −1 reaches cell 127. Only addresses below −128 or above 127 raise (`Machine.MemoryAddressRange`). The same Python indexing applies to register numbers (`$-1` is `$3`) and to the fetch at a negative pc.
- **Lazy `BZ` label lookup.** An undefined `BZ` label is fatal only when the branch is taken. A `BAL` whose target is not a label never looks the label up at all: it falls back to the effective address, which is 0 for any operand that is not of the form `offset($r)`.
- **Partial `offset($r)` match.** The match is anchored only at the start, so `4($1)xyz` is read as `4($1)`. `$4`..`$9` as a base register raise.
- **Unknown opcodes are no-ops.** They do nothing beyond the pc advance.

## Model

| member | source | states |
|---|---|---|
| Words.Word | snx/word.py:10-11 | the stored form lies in 0..0xFFFF and denotes the same word as the input (they differ by a multiple of 2^16) |
| Words.Signed16 | snx/word.py:14-18 | the signed reading lies in -0x8000..0x7FFF and denotes the same word as the input |
| Words.WordEqIff | snx/word.py:10-11 | two integers have the same stored form exactly when they differ by a multiple of 2^16 |
| Words.WordIdempotent | snx/word.py:10-11 | masking twice is masking once |
| Words.WordOfWordValue | snx/word.py:10-11 | a value already in 0..0xFFFF is its own stored form |
| Words.Signed16OfSignedValue | snx/word.py:14-18 | a value already in -0x8000..0x7FFF is its own signed reading |
| Words.Signed16OfWord | snx/word.py:10-18 | the signed reading of the stored form equals the signed reading of the value |
| Words.WordOfSigned16 | snx/word.py:10-18 | the stored form of the signed reading equals the stored form of the value, so the two projections are inverse on words |
| Words.IsNegative16Iff | snx/word.py:14-22 | bit 15 is set exactly when the signed reading is negative |
| Text.Strip | snx/parser.py:19-20 | the result neither starts nor ends with whitespace |
| Text.StripOnlySpace | snx/parser.py:19-20 | `strip` removes whitespace only, and only from the two ends |
| Text.SplitOn | snx/parser.py:19 | the split yields at least one piece, no piece contains the separator, and joining the pieces with it gives back the input |
| Text.TokenizeCut | snx/parser.py:32 | the input is exactly the pieces of `re.split(r'[,\s]+', s)` with non-empty runs of commas and whitespace between them; no piece holds a comma or whitespace, and only the first and the last piece can be empty |
| Text.CutUnique | snx/parser.py:32 | any way of cutting a string into such pieces and runs is the one `re.split` makes, so the pieces are determined by the input |
| Text.TokenizeFirst | snx/parser.py:32-33 | the first piece is the longest separator-free prefix of the input |
| Text.Upper | snx/parser.py:33 | `upper` keeps the length and maps each character on its own: `a`..`z` to `A`..`Z`, every other character to itself |
| Text.ParseInt | main.py:40-42 | `int` yields a value only for a non-empty token that starts with a digit, `+` or `-`; a token that starts with a digit yields a value of at least 0 |
| Text.ParseIntDigits | main.py:40-42 | a run of digits `ds`, bare or after `+`, reads as its decimal value; after `-` it reads as minus that value |
| Text.ParseIntSign | main.py:40-42 | a token `+body` or `-body` reads exactly as `body`'s decimal literal with that sign, and fails exactly when `body` is no decimal literal |
| Text.DecimalValueDigits | main.py:40-42 | a non-empty run of digits is a decimal literal whose value is the digits read in base 10 |
| Text.DecimalValueGrouped | main.py:40-42 | one `_` between digits does not change the value (`1_000` reads as `1000`) |
| Text.DecimalValueDoubleUnderscore | main.py:40-42 | two `_` in a row before a digit run make the literal invalid, so `int` raises |
| Text.DecimalValueLiteral | main.py:40-42 | the decimal reading succeeds exactly on decimal literals: a non-empty text in which every character is a digit or a `_` with a digit on each side; anything else, such as an `x`, makes `int` raise |
| Text.DecimalValueChars | main.py:40-42 | a text that reads as a decimal value holds only digits and `_` placed between two digits |
| Text.DecimalLiteralValue | main.py:40-42 | every decimal literal reads as a value |
| Text.ParseIntLiteral | main.py:40-42 | `int(t)` succeeds exactly when `t` is non-empty and, after one optional `+` or `-`, is a decimal literal |
| Text.ParseIntRejectsHex | main.py:40-42 | `int('0x1')` raises: a hexadecimal spelling is not read |
| Text.ParseIntShowInt | main.py:40-42 | `int` reads every decimal spelling back to its value, negative ones included |
| Parser.CodeText | snx/parser.py:20 | the text kept from a line contains no `;` and is trimmed |
| Parser.CodeTextComment | snx/parser.py:20 | for a line `pre;post` with no `;` in `pre`, the kept text is `pre` stripped, whatever `post` holds |
| Parser.CodeTextNoComment | snx/parser.py:20 | a line without `;` keeps all of its text, stripped |
| Parser.DecodeWellFormed | snx/parser.py:32-36 | tokenizing a non-empty trimmed line gives an instruction whose raw text is that line; the line is exactly the first token followed by the operands, with non-empty runs of commas and whitespace between them; the opcode is the upper-cased first token, free of separators and of lower-case letters |
| Parser.SplitLabelFacts | snx/parser.py:24-27 | a label is bound exactly when the line has a `:`; the name is the stripped text before the first `:`, so it holds no `:` or `;` and is trimmed; without a `:` the code part is the whole line |
| Parser.SplitLabelAt | snx/parser.py:24-27 | for a text `pre:post` with no `:` in `pre`, the label is `pre` stripped and the code part is `post` stripped, whatever `post` holds |
| Parser.ParseLineBlank | snx/parser.py:20-22 | a line that is empty after removing the comment and stripping contributes neither a label nor an instruction |
| Parser.ParseLineLabel | snx/parser.py:20-26 | a line binds a label exactly when its comment-free text has a `:`; the name bound is the label part of splitting that text at its first `:`, and it is a well-formed label |
| Parser.ParseLineLabelName | snx/parser.py:20-26 | a line whose comment-free text is `pre:post` with no `:` in `pre` binds the name `pre` with surrounding whitespace stripped |
| Parser.ParseLineInstruction | snx/parser.py:20-36 | an emitted instruction is well formed; its raw text is the code after the label, or the whole comment-free line when there is no label |
| Parser.ParseCode | snx/parser.py:14-39 | the loop returns exactly the reference parse of its input; it is total; every label lies in `0..len(instructions)`; every instruction is well formed |
| Parser.FeedLine | snx/parser.py:20-37 | one pass of the loop body adds exactly that line's label and instruction to the parser state, and the instruction counter stays equal to the number of instructions |
| Parser.ParseSound | snx/parser.py:14-39 | every label of the parse of any program lies in `0..len(instructions)` and every instruction is well formed |
| Parser.LabelsInRange | snx/parser.py:24-37 | after any sequence of lines, every label value lies in `0..len(instructions)` |
| Parser.InstructionsWellFormed | snx/parser.py:32-36 | when every line contributes well-formed instructions, all assembled instructions are well formed |
| Parser.InstructionsAppend | snx/parser.py:36 | the instructions of two consecutive blocks of lines are those of the first block followed by those of the second, in source order |
| Parser.BlankLineIgnored | snx/parser.py:20-22 | appending a blank or comment-only line changes neither the instructions nor the labels |
| Parser.LabelIndex | snx/parser.py:24-37 | a label's value is the number of instructions emitted before its last defining line |
| Parser.LabelResolution | snx/parser.py:24-37 | a label names the instruction on its own line, or the next one: the instructions from the label's index on are exactly those emitted from its defining line on |
| Parser.LabelOnlyNamesNext | snx/parser.py:24-30 | a label alone on its line names the next emitted instruction: the instructions from its index on are those of the following lines |
| Parser.LabelLastDefinitionWins | snx/parser.py:26 | for a label defined twice, the later definition's index is kept |
| Parser.LabelKeys | snx/parser.py:24-26 | a name is in the table exactly when some line defines it |
| Machine.Initial | main.py:5-10 | four zero registers, 128 zero words of memory, pc 0, running |
| Machine.PyIndex | main.py:79-87 | a Python list index into a list of length n succeeds exactly for -n..n-1 and names the slot i or i+n |
| Machine.GetRegIdxRegisterToken | main.py:40-42 | `$n` and `n` both decode to register number n |
| Machine.RegOfDollarToken | main.py:40-42 | an operand `$t` (with no other `$`) selects the slot `regs[int(t)]` would, and fails exactly when `int(t)` raises or the index is out of range |
| Machine.RegNamesRegister | main.py:40-42 | an operand `$n` selects register slot n, or n + 4 for n in -4..-1, and fails for any other n, as `regs[n]` does |
| Machine.Reg | main.py:89-93 | a register operand that is used yields a slot in 0..3 |
| Machine.MatchBaseOffsetRoundTrip | main.py:46-49 | matching the text `offset($r)`, followed by anything, yields that offset and that register digit |
| Machine.MatchBaseOffsetForm | main.py:46-49 | the pattern accepts exactly the operands made of an optional `-`, a digit run, `($r)` and any rest; it yields the signed value of the digits and r |
| Machine.EffectiveAddress | main.py:44-55 | an operand not of the form `offset($r)` has address 0; the computation fails exactly when the base register is `$4`..`$9` |
| Machine.EffectiveAddressZeroBase | main.py:51-54 | `offset($0)` is `offset`, whatever `$0` holds |
| Machine.EffectiveAddressRegisterBase | main.py:53-54 | `offset($r)` for `r` in 1..3 is `offset + regs[r]` |
| Machine.EffectiveAddressMissingBase | main.py:49-53 | `offset($r)` for `r` in 4..9 raises |
| Machine.EffectiveAddressOfOther | main.py:46-55 | an operand of no such form (a label name, a bare number) addresses 0 |
| Machine.LoadAddress | main.py:74-77 | `LDA` succeeds exactly when its first operand names a register and its second is present and, when of the form `offset($r)`, has r in 0..3; then only that register changes, to the effective address |
| Machine.Load | main.py:79-82 | `LD` succeeds exactly when, in addition, the address indexes the 128-word memory; then only the destination register changes, to the addressed cell |
| Machine.Store | main.py:84-87 | `ST` succeeds under the same conditions as `LD`; then only the addressed cell changes, to the source register |
| Machine.Add | main.py:89-93 | `ADD` succeeds exactly when all three operands name registers; memory, pc and the running flag are untouched |
| Machine.AddInRegisters | main.py:89-93 | with three valid register operands, `ADD` writes the sum of the two sources into the destination and changes nothing else |
| Machine.AddYields | main.py:89-93 | conversely, any state that differs only in the destination register, which holds the sum of the two sources, is the state `ADD` produces |
| Machine.SetLessThan | main.py:95-99 | `SLT` succeeds exactly when all three operands name registers; the destination becomes 1 when the first source is less than the second and 0 otherwise, and no other register changes |
| Machine.BranchZero | main.py:101-105 | `BZ` fails exactly when its condition is no register, its label operand is missing, or the branch is taken to an undefined label; pc becomes the label's index exactly when the condition register holds 0 |
| Machine.BranchAndLink | main.py:107-120 | `BAL` fails exactly when its link is no register, its target is missing, or a target that is no label has a base past `$3`; the link register receives the advanced pc and pc becomes the label's index or the effective address |
| Machine.Execute | main.py:73-123 | only the seven opcodes that read operands can fail; `HLT` clears the running flag and every other opcode keeps it; only `BZ` and `BAL` move pc |
| Machine.Exec | main.py:57-127 | a step stops without executing exactly when the machine is halted or pc is past the program; no step sets the running flag |
| Machine.StepWhenStopped | main.py:58-60 | a halted machine, or one whose pc is past the program, executes nothing and only clears the running flag |
| Machine.FaultKeepsState | main.py:62-123 | a step that raises leaves registers, memory and the running flag unchanged; pc is unchanged when no instruction was fetched and advanced by one when the fetched instruction raised |
| Machine.TraceRecordContents | main.py:67-127 | an executed step reports the pc before it, the fetched instruction's raw text and the registers after it |
| Machine.LoadAddressEffect | main.py:74-77 | a fetched `LDA` executes exactly when its destination names a register and its address operand is present with no base past `$3`; then it writes the effective address into the destination and changes nothing else but pc+1 |
| Machine.LoadEffect | main.py:79-82 | a fetched `LD` executes exactly when, in addition, the address lies in -128..127; then it copies the addressed cell into the destination and changes nothing else but pc+1 |
| Machine.StoreEffect | main.py:84-87 | a fetched `ST` executes under the same conditions as `LD`; then it writes the source register into the addressed cell and changes nothing else but pc+1 |
| Machine.MemoryAddressRange | main.py:79-87 | an address faults exactly when it is below -128 or above 127; -128..-1 address cells counted from the end |
| Machine.AddEffect | main.py:89-93 | a fetched `ADD` executes exactly when its three operands name registers; then it writes `regs[a] + regs[b]`, unmasked, into the destination and changes nothing else but pc+1 |
| Machine.SetLessThanEffect | main.py:95-99 | a fetched `SLT` executes exactly when its three operands name registers; then it writes 0 or 1, and 1 exactly when `regs[a] < regs[b]`; the other registers, memory and pc+1 are as before |
| Machine.BranchZeroEffect | main.py:101-105 | a fetched `BZ` executes exactly when its condition names a register, the label operand is present, and the label is defined if the branch is taken; it jumps to the label exactly when the condition register holds 0 and otherwise falls through to pc+1; registers and memory are unchanged |
| Machine.BranchAndLinkEffect | main.py:107-120 | a fetched `BAL` executes exactly when its link names a register, the target is present, and a target that is no label has no base past `$3`; it stores the advanced pc in the link register, then jumps to the label or to the effective address |
| Machine.HaltEffect | main.py:122-123 | `HLT` executes, advances pc and clears the running flag |
| Machine.UnknownOpcodeEffect | main.py:73-123 | an opcode outside the eight known ones only advances pc |
| Machine.PcAdvancesUnlessBranch | main.py:71 | every executed instruction other than `BZ`/`BAL` leaves pc one past the instruction |
| Machine.StoreThenLoad | main.py:79-87 | `ST r, x` followed by `LD d, x` leaves `d` holding what `r` held, with memory as the store left it |
| Machine.CallAndReturn | main.py:107-120 | `BAL $L, …` followed by `BAL …, 0($L)` returns to the instruction after the first `BAL` |
| Machine.ReturnThroughZeroGoesToZero | main.py:107-120 | a `BAL` through `0($0)` jumps to instruction 0, whatever `$0` holds |
| Machine.RunFrom | main.py:169-170 | at most `fuel` records; the loop ends by halting, by fault or by running out of fuel; a stopped machine stays stopped |
| Machine.HaltFirstRunsOnce | main.py:169-170 | a program starting with `HLT` runs exactly one step, reports one record with zero registers, and ends stopped with memory untouched |
| Simulator.SNXSimulator.constructor | main.py:4-13 | the new object holds the initial state and exactly the parse of its program text; labels are in range and instructions well formed |
| Simulator.SNXSimulator.LoadAddressInPlace | main.py:74-77 | the arrays after the call are the state `LoadAddress` computes, or are unchanged on failure |
| Simulator.SNXSimulator.LoadInPlace | main.py:79-82 | the arrays after the call are the state `Load` computes, or are unchanged on failure |
| Simulator.SNXSimulator.StoreInPlace | main.py:84-87 | the arrays after the call are the state `Store` computes, or are unchanged on failure |
| Simulator.SNXSimulator.AddInPlace | main.py:89-93 | the arrays after the call are the state `Add` computes, or are unchanged on failure |
| Simulator.SNXSimulator.SetLessThanInPlace | main.py:95-99 | the arrays after the call are the state `SetLessThan` computes, or are unchanged on failure |
| Simulator.SNXSimulator.BranchZeroInPlace | main.py:101-105 | pc after the call is the one `BranchZero` computes, or is unchanged on failure |
| Simulator.SNXSimulator.BranchAndLinkInPlace | main.py:107-120 | the link register and pc after the call are those `BranchAndLink` computes, or are unchanged on failure |
| Simulator.SNXSimulator.ExecuteInPlace | main.py:73-123 | the object after the dispatch holds the state `Execute` computes, or is unchanged on failure |
| Simulator.SNXSimulator.Step | main.py:57-127 | the outcome and the object's new state are exactly those of `Exec` on the old state, so every opcode lemma above holds of the object |
| Simulator.SNXSimulator.Run | main.py:169-170 | running at most `fuel` steps leaves the object in the final state of `RunFrom` and returns its trace and fault flag |

## Left out

- Printing: `step()` prints a trace line (`main.py:126-127`); the model returns the line's contents as a `TraceRecord` instead, and the text formatting is not modelled.
- The script at `main.py:130-167` (the sample program and the table header) is not modelled; the driver loop `while sim.running: sim.step()` is modelled as `Run`/`RunFrom`.
- `Simulator.SNXSimulator.Run`: bounded by `fuel`, because the source loop need not terminate (a program can branch forever); a run that is still going when the fuel is spent ends with `running` still true.
- `Machine.RunFrom`: same fuel bound as `Run`.
- Python exceptions: `IndexError`, `KeyError` and `ValueError` are collapsed into one `Fault` outcome. The message, the exception type and the traceback are not modelled.
- Unicode: whitespace, `\d`, `\s`, `str.upper()` and `int()` are modelled over ASCII only. Python also accepts non-ASCII whitespace, digits and case mappings (e.g. `'ß'.upper()` is two characters); these are not modelled.
- `Text.ParseInt`: does not model the limit on the length of decimal text that CPython 3.11 and later put on `int()` (4300 digits by default, beyond which it raises `ValueError`); an operand such as `LDA $1, <5000 digits>($0)` faults in such a Python, while the model writes the value.
- `int()` accepts surrounding whitespace; the model does not, because every token it is applied to comes out of `re.split(r'[,\s]+', …)` or out of the `\$\d` group and so never contains whitespace.
- `snx/cli.py` and `snx/__init__.py` (command line, version string, file reading) are not part of this model.
- `Words.Word`, `Words.Signed16`, `Words.IsNegative16Iff`: modelled and proved on their own; the engine does not use them, because `main.py` never masks.
- The duplicate `_parse_code` in `main.py:15-38` stores dictionaries instead of `Instruction` records and `list` operands instead of a tuple; both are the same `Parser.Instruction` here.

=== FILE: machine.dfy ===
/**
 * The SN/X execution engine as a function on machine states: operand
 * decoding, effective addresses and one `step()` of `SNXSimulator`
 * (main.py:40-123). Registers and memory hold unbounded integers: this
 * engine never masks to 16 bits. Every way the source can raise
 * (a bad list index, a missing label, too few operands, a register token
 * that is not a number) is the single outcome `Fault`.
 */
module Machine {
  import opened Wrappers
  import opened Text
  import opened Parser

  const REGISTER_COUNT := 4
  const MEMORY_WORDS := 128

  /** Registers `$0`..`$3`, the 128-word memory, the program counter and the run flag. */
  datatype State = State(regs: seq<int>, memory: seq<int>, pc: int, running: bool)

  /** The shape every state keeps: four registers and 128 memory cells. */
  predicate Shaped(m: State) {
    |m.regs| == REGISTER_COUNT && |m.memory| == MEMORY_WORDS
  }

  /** What one executed instruction reports: its own pc, its text, the registers afterwards. */
  datatype TraceRecord = TraceRecord(pc: int, raw: string, regs: seq<int>)

  /**
   * `Stopped`: the machine was halted or ran off the end, nothing executed;
   * `Traced`: an instruction executed; `Fault`: the source raises.
   */
  datatype Outcome = Stopped | Traced(record: TraceRecord) | Fault

  datatype StepResult = StepResult(outcome: Outcome, next: State)

  /** The initial state built by the constructor (main.py:5-10). */
  function Initial(): (m: State)
    ensures Shaped(m) && m.pc == 0 && m.running
    ensures forall k :: 0 <= k < REGISTER_COUNT ==> m.regs[k] == 0
    ensures forall k :: 0 <= k < MEMORY_WORDS ==> m.memory[k] == 0
  {
    State(seq(REGISTER_COUNT, _ => 0), seq(MEMORY_WORDS, _ => 0), 0, true)
  }

  /**
   * Python's `xs[i]` on a list of length `n`: `-n <= i < n` is accepted and a
   * negative `i` counts from the end; anything else raises.
   */
  function PyIndex(i: int, n: nat): (r: Option<nat>)
    ensures r.Some? <==> -(n as int) <= i < n
    ensures r.Some? ==> r.value < n && (r.value == i || r.value == i + n)
  {
    if 0 <= i < n then Some(i)
    else if -(n as int) <= i < 0 then Some(i + n)
    else None
  }

  /** `_get_reg_idx` (main.py:40-42): `int(tok.replace('$', ''))`; `None` is the `ValueError`. */
  function GetRegIdx(tok: string): Option<int>
  {
    ParseInt(RemoveChar(tok, '$'))
  }

  /** The text `$n` names register `n`; so does the plain number `n`. */
  lemma {:induction false} GetRegIdxRegisterToken(n: int)
    ensures GetRegIdx("$" + ShowInt(n)) == Some(n)
    ensures GetRegIdx(ShowInt(n)) == Some(n)
  {
    var s := ShowInt(n);
    ParseIntShowInt(n);
    assert '$' !in s by {
      if n < 0 {
        assert s == "-" + ShowNat(-n);
        assert AllDigits(ShowNat(-n));
      } else {
        assert AllDigits(s);
      }
    }
    assert ("$" + s)[1..] == s;
    assert RemoveChar("$" + s, '$') == RemoveChar(s, '$');
  }

  /** Operand `k`, if present; a missing one is the `IndexError` of `args[k]`. */
  function Arg(args: seq<string>, k: nat): Option<string>
  {
    if k < |args| then Some(args[k]) else None
  }

  /** The register slot operand `k` names: present, numeric, and a valid index into the register list. */
  function Reg(args: seq<string>, k: nat): (r: Option<nat>)
    ensures r.Some? ==> r.value < REGISTER_COUNT
  {
    var tok :- Arg(args, k);
    var idx :- GetRegIdx(tok);
    PyIndex(idx, REGISTER_COUNT)
  }

  /** An operand `$t` selects the slot Python's `regs[int(t)]` would, and fails when `int(t)` or the index does. */
  lemma {:induction false} RegOfDollarToken(args: seq<string>, k: nat, t: string)
    requires k < |args| && args[k] == "$" + t && '$' !in t
    ensures Reg(args, k) == if ParseInt(t).Some? then PyIndex(ParseInt(t).value, REGISTER_COUNT) else None
  {
    assert ("$" + t)[1..] == t;
    assert RemoveChar("$" + t, '$') == RemoveChar(t, '$');
  }

  /** An operand written `$n` selects slot `n`, or `n + 4` for `n` in -4..-1, as `regs[n]` does. */
  lemma {:induction false} RegNamesRegister(args: seq<string>, k: nat, n: int)
    requires k < |args| && args[k] == "$" + ShowInt(n)
    ensures Reg(args, k) == PyIndex(n, REGISTER_COUNT)
  {
    GetRegIdxRegisterToken(n);
  }

  /**
   * The unsigned part of the pattern, `\d+\((\$\d)\)`, anchored at the start:
   * the value of the digit run and the base register digit.
   */
  function MatchUnsigned(rest: string): (r: Option<(nat, nat)>)
    ensures r.Some? ==> r.value.1 <= 9
  {
    var k := SpanLen(rest, Digit);
    if 1 <= k && k + 4 <= |rest| && rest[k] == '(' && rest[k + 1] == '$'
       && IsDigit(rest[k + 2]) && rest[k + 3] == ')'
    then
      SpanLenPrefix(rest, Digit);
      Some((DigitsValue(rest[..k]), rest[k + 2] as int - '0' as int))
    else None
  }

  /**
   * `re.match(r'(-?\d+)\((\$\d)\)', s)`: anchored at the start only, so any
   * text after the closing parenthesis is ignored. Yields the offset and the
   * base register digit.
   */
  function MatchBaseOffset(s: string): (r: Option<(int, nat)>)
    ensures r.Some? ==> r.value.1 <= 9
  {
    var neg := |s| > 0 && s[0] == '-';
    var (magnitude, reg) :- MatchUnsigned(if neg then s[1..] else s);
    Some((if neg then -(magnitude as int) else magnitude, reg))
  }

  /** The base register `$r` written after the offset, followed by arbitrary text. */
  function RegisterSuffix(r: nat, tail: string): string
    requires r <= 9
  {
    ['(', '$', '0' + r as char, ')'] + tail
  }

  /** The operand `offset($r)` written out, followed by arbitrary text. */
  function BaseOffsetText(offset: int, r: nat, tail: string): string
    requires r <= 9
  {
    ShowInt(offset) + RegisterSuffix(r, tail)
  }

  /** The unsigned recognizer reads back a digit run and the register written after it. */
  lemma {:induction false} MatchUnsignedDigits(digits: string, r: nat, tail: string)
    requires |digits| >= 1 && AllDigits(digits) && r <= 9
    ensures MatchUnsigned(digits + RegisterSuffix(r, tail)) == Some((DigitsValue(digits), r))
  {
    var after := RegisterSuffix(r, tail);
    var rest := digits + after;
    SpanLenAppend(digits, after, Digit);
    assert rest[..|digits|] == digits;
    assert rest[|digits|..] == after;
  }

  /** A digit run, optionally preceded by `-`, reads back with its sign. */
  lemma {:induction false} MatchSignedDigits(neg: bool, digits: string, r: nat, tail: string)
    requires |digits| >= 1 && AllDigits(digits) && r <= 9
    ensures MatchBaseOffset(OffsetText(neg, digits, r, tail)) == Some((OffsetValue(neg, digits), r))
  {
    if neg {
      MatchNegativeDigits(digits, r, tail);
    } else {
      MatchNonNegativeDigits(digits, r, tail);
      assert OffsetText(neg, digits, r, tail) == digits + RegisterSuffix(r, tail);
    }
  }

  lemma {:induction false} MatchNegativeDigits(digits: string, r: nat, tail: string)
    requires |digits| >= 1 && AllDigits(digits) && r <= 9
    ensures MatchBaseOffset("-" + digits + RegisterSuffix(r, tail)) == Some((-(DigitsValue(digits) as int), r))
  {
    var rest := digits + RegisterSuffix(r, tail);
    MatchUnsignedDigits(digits, r, tail);
    assert "-" + digits + RegisterSuffix(r, tail) == "-" + rest;
    assert ("-" + rest)[1..] == rest;
  }

  lemma {:induction false} MatchNonNegativeDigits(digits: string, r: nat, tail: string)
    requires |digits| >= 1 && AllDigits(digits) && r <= 9
    ensures MatchBaseOffset(digits + RegisterSuffix(r, tail)) == Some((DigitsValue(digits) as int, r))
  {
    MatchUnsignedDigits(digits, r, tail);
    assert (digits + RegisterSuffix(r, tail))[0] == digits[0];
  }

  /** The recognizer reads back exactly the offset and register that were written. */
  lemma {:induction false} MatchBaseOffsetRoundTrip(offset: int, r: nat, tail: string)
    requires r <= 9
    ensures MatchBaseOffset(BaseOffsetText(offset, r, tail)) == Some((offset, r))
  {
    var neg := offset < 0;
    var digits := ShowNat(if neg then -offset else offset);
    MatchSignedDigits(neg, digits, r, tail);
    assert BaseOffsetText(offset, r, tail) == OffsetText(neg, digits, r, tail);
  }

  /** An operand of the shape the pattern accepts: optional `-`, digits, `($r)`, anything. */
  function OffsetText(neg: bool, digits: string, r: nat, tail: string): string
    requires r <= 9
  {
    (if neg then "-" else "") + digits + RegisterSuffix(r, tail)
  }

  /** The offset such an operand denotes. */
  function OffsetValue(neg: bool, digits: string): int
    requires AllDigits(digits)
  {
    if neg then -(DigitsValue(digits) as int) else DigitsValue(digits)
  }

  /** An operand the unsigned recognizer accepts splits into its digit run, `($r)` and the rest. */
  lemma {:induction false} MatchUnsignedSplit(body: string) returns (digits: string, tail: string)
    requires MatchUnsigned(body).Some?
    ensures |digits| >= 1 && AllDigits(digits)
    ensures body == digits + RegisterSuffix(MatchUnsigned(body).value.1, tail)
    ensures MatchUnsigned(body).value.0 == DigitsValue(digits)
  {
    var k := SpanLen(body, Digit);
    SpanLenPrefix(body, Digit);
    var r := MatchUnsigned(body).value.1;
    digits, tail := body[..k], body[k + 4..];
    assert body[k + 2] == '0' + r as char;
    assert body[k..k + 4] == ['(', '$', '0' + r as char, ')'];
    assert body[k..] == body[k..k + 4] + tail;
    assert body == digits + body[k..];
  }

  /** An accepted operand splits into sign, digit run, `($r)` and the rest. */
  lemma {:induction false} MatchBaseOffsetSplit(s: string) returns (neg: bool, digits: string, tail: string)
    requires MatchBaseOffset(s).Some?
    ensures |digits| >= 1 && AllDigits(digits)
    ensures s == OffsetText(neg, digits, MatchBaseOffset(s).value.1, tail)
    ensures MatchBaseOffset(s).value.0 == OffsetValue(neg, digits)
  {
    neg := |s| > 0 && s[0] == '-';
    var body := if neg then s[1..] else s;
    var r := MatchUnsigned(body).value.1;
    digits, tail := MatchUnsignedSplit(body);
    OffsetTextSign(s, neg, body, digits, r, tail);
  }

  /** Putting the sign back in front of the unsigned part gives the operand. */
  lemma {:induction false} OffsetTextSign(s: string, neg: bool, body: string, digits: string, r: nat, tail: string)
    requires r <= 9 && neg == (|s| > 0 && s[0] == '-') && body == (if neg then s[1..] else s)
    requires body == digits + RegisterSuffix(r, tail)
    ensures s == OffsetText(neg, digits, r, tail)
  {
    var sign: string := if neg then "-" else "";
    if neg {
      assert s == [s[0]] + s[1..];
    }
    assert sign + (digits + RegisterSuffix(r, tail)) == sign + digits + RegisterSuffix(r, tail);
  }

  /**
   * The recognizer accepts exactly the operands of that shape and yields
   * their signed digit value and base register digit.
   */
  lemma {:induction false} MatchBaseOffsetForm(s: string, o: int, r: nat)
    ensures MatchBaseOffset(s) == Some((o, r)) <==>
            r <= 9 && exists neg, digits, tail ::
              |digits| >= 1 && AllDigits(digits) && s == OffsetText(neg, digits, r, tail) && o == OffsetValue(neg, digits)
  {
    if MatchBaseOffset(s) == Some((o, r)) {
      var neg, digits, tail := MatchBaseOffsetSplit(s);
      assert s == OffsetText(neg, digits, r, tail);
    }
    if r <= 9 && exists neg, digits, tail ::
         |digits| >= 1 && AllDigits(digits) && s == OffsetText(neg, digits, r, tail) && o == OffsetValue(neg, digits) {
      var neg, digits, tail :|
        |digits| >= 1 && AllDigits(digits) && s == OffsetText(neg, digits, r, tail) && o == OffsetValue(neg, digits);
      MatchSignedDigits(neg, digits, r, tail);
    }
  }

  /**
   * `_calc_effective_addr` (main.py:44-55): `offset + base`, where the base is
   * 0 for `$0` whatever `$0` holds; an operand that does not match reads as 0;
   * a base register past `$3` raises.
   */
  function EffectiveAddress(operand: string, regs: seq<int>): (r: Option<int>)
    requires |regs| == REGISTER_COUNT
    ensures MatchBaseOffset(operand).None? ==> r == Some(0)
    ensures r.None? <==> MatchBaseOffset(operand).Some? && MatchBaseOffset(operand).value.1 >= REGISTER_COUNT
  {
    match MatchBaseOffset(operand)
    case None => Some(0)
    case Some((offset, reg)) =>
      if reg == 0 then Some(offset)
      else
        var slot :- PyIndex(reg, REGISTER_COUNT);
        Some(offset + regs[slot])
  }

  /** `N($0)` addresses `N`, ignoring the value held in `$0`. */
  lemma {:induction false} EffectiveAddressZeroBase(offset: int, tail: string, regs: seq<int>)
    requires |regs| == REGISTER_COUNT
    ensures EffectiveAddress(BaseOffsetText(offset, 0, tail), regs) == Some(offset)
  {
    MatchBaseOffsetRoundTrip(offset, 0, tail);
  }

  /** `N($r)` for `r` in 1..3 addresses `N + regs[r]`. */
  lemma {:induction false} EffectiveAddressRegisterBase(offset: int, r: nat, tail: string, regs: seq<int>)
    requires 1 <= r < REGISTER_COUNT && |regs| == REGISTER_COUNT
    ensures EffectiveAddress(BaseOffsetText(offset, r, tail), regs) == Some(offset + regs[r])
  {
    MatchBaseOffsetRoundTrip(offset, r, tail);
  }

  /** `N($r)` for `r` in 4..9 raises: there is no such register. */
  lemma {:induction false} EffectiveAddressMissingBase(offset: int, r: nat, tail: string, regs: seq<int>)
    requires REGISTER_COUNT <= r <= 9 && |regs| == REGISTER_COUNT
    ensures EffectiveAddress(BaseOffsetText(offset, r, tail), regs) == None
  {
    MatchBaseOffsetRoundTrip(offset, r, tail);
  }

  /** An operand of no such shape (a label name, a bare number, `(1)`) addresses 0. */
  lemma {:induction false} EffectiveAddressOfOther(operand: string, regs: seq<int>)
    requires |regs| == REGISTER_COUNT
    requires forall neg, digits, r, tail :: r <= 9 && |digits| >= 1 && AllDigits(digits) ==>
               operand != OffsetText(neg, digits, r, tail)
    ensures EffectiveAddress(operand, regs) == Some(0)
  {
    if MatchBaseOffset(operand).Some? {
      var (o, r) := MatchBaseOffset(operand).value;
      MatchBaseOffsetForm(operand, o, r);
      assert false;
    }
  }

  /** LDA dest, addr (main.py:74-77): the effective address itself, unmasked, into `dest`. */
  function LoadAddress(args: seq<string>, m: State): (r: Option<State>)
    requires Shaped(m)
    ensures r.Some? <==> Reg(args, 0).Some? && |args| >= 2 && EffectiveAddress(args[1], m.regs).Some?
    ensures r.Some? ==> Shaped(r.value) && r.value.memory == m.memory && r.value.pc == m.pc && r.value.running == m.running
    ensures r.Some? ==> r.value.regs == m.regs[Reg(args, 0).value := EffectiveAddress(args[1], m.regs).value]
  {
    var dest :- Reg(args, 0);
    var addr :- Arg(args, 1);
    var ea :- EffectiveAddress(addr, m.regs);
    Some(m.(regs := m.regs[dest := ea]))
  }

  /** LD dest, addr (main.py:79-82): the memory word at the effective address into `dest`. */
  function Load(args: seq<string>, m: State): (r: Option<State>)
    requires Shaped(m)
    ensures r.Some? <==> Reg(args, 0).Some? && |args| >= 2 && EffectiveAddress(args[1], m.regs).Some?
                         && PyIndex(EffectiveAddress(args[1], m.regs).value, MEMORY_WORDS).Some?
    ensures r.Some? ==> Shaped(r.value) && r.value.memory == m.memory && r.value.pc == m.pc && r.value.running == m.running
    ensures r.Some? ==>
              r.value.regs == m.regs[Reg(args, 0).value :=
                                     m.memory[PyIndex(EffectiveAddress(args[1], m.regs).value, MEMORY_WORDS).value]]
  {
    var dest :- Reg(args, 0);
    var addr :- Arg(args, 1);
    var ea :- EffectiveAddress(addr, m.regs);
    var cell :- PyIndex(ea, MEMORY_WORDS);
    Some(m.(regs := m.regs[dest := m.memory[cell]]))
  }

  /** ST src, addr (main.py:84-87): register `src` into the memory word at the effective address. */
  function Store(args: seq<string>, m: State): (r: Option<State>)
    requires Shaped(m)
    ensures r.Some? <==> Reg(args, 0).Some? && |args| >= 2 && EffectiveAddress(args[1], m.regs).Some?
                         && PyIndex(EffectiveAddress(args[1], m.regs).value, MEMORY_WORDS).Some?
    ensures r.Some? ==> Shaped(r.value) && r.value.regs == m.regs && r.value.pc == m.pc && r.value.running == m.running
    ensures r.Some? ==>
              r.value.memory == m.memory[PyIndex(EffectiveAddress(args[1], m.regs).value, MEMORY_WORDS).value :=
                                         m.regs[Reg(args, 0).value]]
  {
    var src :- Reg(args, 0);
    var addr :- Arg(args, 1);
    var ea :- EffectiveAddress(addr, m.regs);
    var cell :- PyIndex(ea, MEMORY_WORDS);
    Some(m.(memory := m.memory[cell := m.regs[src]]))
  }

  /** ADD dest, a, b (main.py:89-93): the unbounded sum. */
  function Add(args: seq<string>, m: State): (r: Option<State>)
    requires Shaped(m)
    ensures r.Some? <==> Reg(args, 0).Some? && Reg(args, 1).Some? && Reg(args, 2).Some?
    ensures r.Some? ==> Shaped(r.value) && r.value.memory == m.memory && r.value.pc == m.pc && r.value.running == m.running
  {
    var dest :- Reg(args, 0);
    var a :- Reg(args, 1);
    var b :- Reg(args, 2);
    Some(m.(regs := m.regs[dest := m.regs[a] + m.regs[b]]))
  }

  /** With three register operands, ADD writes the sum into the destination register. */
  lemma {:induction false} AddInRegisters(args: seq<string>, m: State, dest: nat, a: nat, b: nat)
    requires Shaped(m)
    requires Reg(args, 0) == Some(dest) && Reg(args, 1) == Some(a) && Reg(args, 2) == Some(b)
    ensures Add(args, m) == Some(m.(regs := m.regs[dest := m.regs[a] + m.regs[b]]))
  {
  }

  /** A state that differs from `m` only in `dest`, which holds the sum, is the one ADD produces. */
  lemma {:induction false} AddYields(args: seq<string>, m: State, m': State, dest: nat, a: nat, b: nat)
    requires Shaped(m) && Shaped(m')
    requires Reg(args, 0) == Some(dest) && Reg(args, 1) == Some(a) && Reg(args, 2) == Some(b)
    requires m'.regs[dest] == m.regs[a] + m.regs[b]
    requires forall j :: 0 <= j < REGISTER_COUNT && j != dest ==> m'.regs[j] == m.regs[j]
    requires m'.memory == m.memory && m'.pc == m.pc && m'.running == m.running
    ensures Add(args, m) == Some(m')
  {
    AddInRegisters(args, m, dest, a, b);
    assert m'.regs == m.regs[dest := m.regs[a] + m.regs[b]];
  }

  /** SLT dest, a, b (main.py:95-99): 1 when `a < b` on the raw integers, else 0. */
  function SetLessThan(args: seq<string>, m: State): (r: Option<State>)
    requires Shaped(m)
    ensures r.Some? <==> Reg(args, 0).Some? && Reg(args, 1).Some? && Reg(args, 2).Some?
    ensures r.Some? ==> Shaped(r.value) && r.value.memory == m.memory && r.value.pc == m.pc && r.value.running == m.running
    ensures r.Some? ==> var dest := Reg(args, 0).value;
              && (r.value.regs[dest] == 0 || r.value.regs[dest] == 1)
              && (r.value.regs[dest] == 1 <==> m.regs[Reg(args, 1).value] < m.regs[Reg(args, 2).value])
              && (forall j :: 0 <= j < REGISTER_COUNT && j != dest ==> r.value.regs[j] == m.regs[j])
  {
    var dest :- Reg(args, 0);
    var a :- Reg(args, 1);
    var b :- Reg(args, 2);
    Some(m.(regs := m.regs[dest := if m.regs[a] < m.regs[b] then 1 else 0]))
  }

  /**
   * BZ cond, label (main.py:101-105): jump to the label when `cond` holds 0.
   * The label is looked up only when the branch is taken.
   */
  function BranchZero(labels: map<string, int>, args: seq<string>, m: State): (r: Option<State>)
    requires Shaped(m)
    ensures r.Some? <==> Reg(args, 0).Some? && |args| >= 2 && (m.regs[Reg(args, 0).value] == 0 ==> args[1] in labels)
    ensures r.Some? ==> r.value.regs == m.regs && r.value.memory == m.memory && r.value.running == m.running
    ensures r.Some? ==> r.value.pc == if m.regs[Reg(args, 0).value] == 0 then labels[args[1]] else m.pc
  {
    var cond :- Reg(args, 0);
    var name :- Arg(args, 1);
    if m.regs[cond] != 0 then Some(m)
    else if name in labels then Some(m.(pc := labels[name]))
    else None
  }

  /**
   * BAL link, target (main.py:107-120): the advanced pc into `link`, then a
   * jump to the label, or, when `target` is no label, to its effective
   * address read as an instruction index (computed before the link write).
   */
  function BranchAndLink(labels: map<string, int>, args: seq<string>, m: State): (r: Option<State>)
    requires Shaped(m)
    ensures r.Some? <==> Reg(args, 0).Some? && |args| >= 2 &&
                         (args[1] !in labels ==> EffectiveAddress(args[1], m.regs).Some?)
    ensures r.Some? ==> r.value.regs == m.regs[Reg(args, 0).value := m.pc]
    ensures r.Some? ==> r.value.memory == m.memory && r.value.running == m.running
    ensures r.Some? ==>
              r.value.pc == if args[1] in labels then labels[args[1]] else EffectiveAddress(args[1], m.regs).value
  {
    var link :- Reg(args, 0);
    var target :- Arg(args, 1);
    var targetPc :- if target in labels then Some(labels[target]) else EffectiveAddress(target, m.regs);
    Some(m.(regs := m.regs[link := m.pc], pc := targetPc))
  }

  /**
   * The body of one instruction (main.py:73-123), run on a state whose pc has
   * already been advanced. `None` when the source raises; the source writes
   * nothing before raising. An unknown opcode does nothing.
   */
  function Execute(labels: map<string, int>, inst: Instruction, m: State): (r: Option<State>)
    requires Shaped(m)
    ensures r.Some? ==> Shaped(r.value)
    ensures r.None? ==> inst.opcode in ["LDA", "LD", "ST", "ADD", "SLT", "BZ", "BAL"]
    ensures r.Some? ==> r.value.running == (m.running && inst.opcode != "HLT")
    ensures r.Some? && inst.opcode != "BZ" && inst.opcode != "BAL" ==> r.value.pc == m.pc
  {
    var op, args := inst.opcode, inst.operands;
    if op == "LDA" then LoadAddress(args, m)
    else if op == "LD" then Load(args, m)
    else if op == "ST" then Store(args, m)
    else if op == "ADD" then Add(args, m)
    else if op == "SLT" then SetLessThan(args, m)
    else if op == "BZ" then BranchZero(labels, args, m)
    else if op == "BAL" then BranchAndLink(labels, args, m)
    else if op == "HLT" then Some(m.(running := false))
    else Some(m)
  }

  /** Which body `execute` dispatches to for each opcode. */
  lemma {:induction false} ExecuteDispatch(labels: map<string, int>, inst: Instruction, m: State)
    requires Shaped(m)
    ensures inst.opcode == "LDA" ==> Execute(labels, inst, m) == LoadAddress(inst.operands, m)
    ensures inst.opcode == "LD" ==> Execute(labels, inst, m) == Load(inst.operands, m)
    ensures inst.opcode == "ST" ==> Execute(labels, inst, m) == Store(inst.operands, m)
    ensures inst.opcode == "ADD" ==> Execute(labels, inst, m) == Add(inst.operands, m)
    ensures inst.opcode == "SLT" ==> Execute(labels, inst, m) == SetLessThan(inst.operands, m)
    ensures inst.opcode == "BZ" ==> Execute(labels, inst, m) == BranchZero(labels, inst.operands, m)
    ensures inst.opcode == "BAL" ==> Execute(labels, inst, m) == BranchAndLink(labels, inst.operands, m)
  {
  }

  /**
   * `step()` (main.py:57-127): stop when halted or past the last instruction;
   * otherwise fetch at pc (Python indexing), advance pc, then execute.
   */
  function Exec(p: Parsed, m: State): (r: StepResult)
    requires Shaped(m)
    ensures Shaped(r.next)
    ensures r.outcome.Stopped? <==> !m.running || m.pc >= |p.instructions|
    ensures r.next.running ==> m.running
  {
    if !m.running || m.pc >= |p.instructions| then StepResult(Stopped, m.(running := false))
    else
      match PyIndex(m.pc, |p.instructions|)
      case None => StepResult(Fault, m)
      case Some(k) =>
        var inst := p.instructions[k];
        var advanced := m.(pc := m.pc + 1);
        match Execute(p.labels, inst, advanced)
        case None => StepResult(Fault, advanced)
        case Some(after) => StepResult(Traced(TraceRecord(m.pc, inst.raw, after.regs)), after)
  }

  /** The instruction `step()` fetches at pc, if the fetch succeeds. */
  function Fetched(p: Parsed, m: State): Option<Instruction>
  {
    match PyIndex(m.pc, |p.instructions|)
    case None => None
    case Some(k) => Some(p.instructions[k])
  }

  /** `step()` is about to execute an instruction with opcode `op`. */
  predicate Runs(p: Parsed, m: State, op: string) {
    && Shaped(m) && m.running && m.pc < |p.instructions|
    && Fetched(p, m).Some? && Fetched(p, m).value.opcode == op
  }

  /** Once an instruction is fetched, the step's result is that of its body on the advanced state. */
  lemma {:induction false} ExecFetched(p: Parsed, m: State, op: string)
    requires Runs(p, m, op)
    ensures Execute(p.labels, Fetched(p, m).value, m.(pc := m.pc + 1)).Some? <==> Exec(p, m).outcome.Traced?
    ensures Execute(p.labels, Fetched(p, m).value, m.(pc := m.pc + 1)).Some? ==>
              Exec(p, m).next == Execute(p.labels, Fetched(p, m).value, m.(pc := m.pc + 1)).value
    ensures Execute(p.labels, Fetched(p, m).value, m.(pc := m.pc + 1)).None? ==>
              Exec(p, m) == StepResult(Fault, m.(pc := m.pc + 1))
  {
  }

  /** When halted or past the last instruction, `step()` only clears the run flag. */
  lemma {:induction false} StepWhenStopped(p: Parsed, m: State)
    requires Shaped(m) && (!m.running || m.pc >= |p.instructions|)
    ensures Exec(p, m) == StepResult(Stopped, m.(running := false))
  {
  }

  /**
   * A fault changes no register, no memory cell and not the run flag; pc is
   * either untouched (the fetch itself failed) or advanced by one.
   */
  lemma {:induction false} FaultKeepsState(p: Parsed, m: State)
    requires Shaped(m) && Exec(p, m).outcome == Fault
    ensures Exec(p, m).next.regs == m.regs && Exec(p, m).next.memory == m.memory
    ensures Exec(p, m).next.running == m.running
    ensures Exec(p, m).next.pc == if Fetched(p, m).None? then m.pc else m.pc + 1
  {
  }

  /** An executed step reports its own pc, its instruction's text and the registers after it. */
  lemma {:induction false} TraceRecordContents(p: Parsed, m: State)
    requires Shaped(m) && Exec(p, m).outcome.Traced?
    ensures m.running && Fetched(p, m).Some?
    ensures Exec(p, m).outcome.record == TraceRecord(m.pc, Fetched(p, m).value.raw, Exec(p, m).next.regs)
  {
  }

  /** The operands of the instruction `step()` fetches. */
  function Ops(p: Parsed, m: State): seq<string>
    requires Fetched(p, m).Some?
  {
    Fetched(p, m).value.operands
  }

  /**
   * LDA executes exactly when its destination names a register and its
   * address operand is present with a base that exists; then only `dest`
   * changes, to the effective address itself, and pc advances.
   */
  lemma {:induction false} LoadAddressEffect(p: Parsed, m: State)
    requires Runs(p, m, "LDA")
    ensures Exec(p, m).outcome.Traced? <==>
            Reg(Ops(p, m), 0).Some? && |Ops(p, m)| >= 2 && EffectiveAddress(Ops(p, m)[1], m.regs).Some?
    ensures Exec(p, m).outcome.Traced? ==>
            Exec(p, m).next == m.(pc := m.pc + 1,
                                  regs := m.regs[Reg(Ops(p, m), 0).value := EffectiveAddress(Ops(p, m)[1], m.regs).value])
  {
    ExecFetched(p, m, "LDA");
    ExecuteDispatch(p.labels, Fetched(p, m).value, m.(pc := m.pc + 1));
  }

  /**
   * LD executes exactly when, in addition, the effective address indexes the
   * 128-word memory; then only `dest` changes, to the addressed word.
   */
  lemma {:induction false} LoadEffect(p: Parsed, m: State)
    requires Runs(p, m, "LD")
    ensures Exec(p, m).outcome.Traced? <==>
            Reg(Ops(p, m), 0).Some? && |Ops(p, m)| >= 2 && EffectiveAddress(Ops(p, m)[1], m.regs).Some?
            && PyIndex(EffectiveAddress(Ops(p, m)[1], m.regs).value, MEMORY_WORDS).Some?
    ensures Exec(p, m).outcome.Traced? ==>
            Exec(p, m).next ==
            m.(pc := m.pc + 1,
               regs := m.regs[Reg(Ops(p, m), 0).value :=
                              m.memory[PyIndex(EffectiveAddress(Ops(p, m)[1], m.regs).value, MEMORY_WORDS).value]])
  {
    ExecFetched(p, m, "LD");
    ExecuteDispatch(p.labels, Fetched(p, m).value, m.(pc := m.pc + 1));
  }

  /**
   * ST executes under the same conditions as LD; then only the addressed
   * memory word changes, to the source register.
   */
  lemma {:induction false} StoreEffect(p: Parsed, m: State)
    requires Runs(p, m, "ST")
    ensures Exec(p, m).outcome.Traced? <==>
            Reg(Ops(p, m), 0).Some? && |Ops(p, m)| >= 2 && EffectiveAddress(Ops(p, m)[1], m.regs).Some?
            && PyIndex(EffectiveAddress(Ops(p, m)[1], m.regs).value, MEMORY_WORDS).Some?
    ensures Exec(p, m).outcome.Traced? ==>
            Exec(p, m).next ==
            m.(pc := m.pc + 1,
               memory := m.memory[PyIndex(EffectiveAddress(Ops(p, m)[1], m.regs).value, MEMORY_WORDS).value :=
                                  m.regs[Reg(Ops(p, m), 0).value]])
  {
    ExecFetched(p, m, "ST");
    ExecuteDispatch(p.labels, Fetched(p, m).value, m.(pc := m.pc + 1));
  }

  /**
   * LD and ST fault on an effective address outside `-128..127`; address
   * `-k` for `k` in 1..128 reaches cell `128 - k`, as Python list indexing does.
   */
  lemma {:induction false} MemoryAddressRange(ea: int)
    ensures PyIndex(ea, MEMORY_WORDS).None? <==> ea < -MEMORY_WORDS || ea >= MEMORY_WORDS
    ensures -MEMORY_WORDS <= ea < 0 ==> PyIndex(ea, MEMORY_WORDS) == Some(ea + MEMORY_WORDS)
  {
  }

  /**
   * ADD executes exactly when all three operands name registers; then only
   * `dest` changes, to the unbounded sum of the two source registers.
   */
  lemma {:induction false} AddEffect(p: Parsed, m: State)
    requires Runs(p, m, "ADD")
    ensures Exec(p, m).outcome.Traced? <==> Reg(Ops(p, m), 0).Some? && Reg(Ops(p, m), 1).Some? && Reg(Ops(p, m), 2).Some?
    ensures Exec(p, m).outcome.Traced? ==>
            var dest, a, b := Reg(Ops(p, m), 0).value, Reg(Ops(p, m), 1).value, Reg(Ops(p, m), 2).value;
            Exec(p, m).next == m.(pc := m.pc + 1, regs := m.regs[dest := m.regs[a] + m.regs[b]])
  {
    ExecAdd(p, m);
    AddStep(Ops(p, m), m, Exec(p, m));
  }

  /** A step that does what `Add` does after pc has moved on. */
  lemma {:induction false} AddStep(ops: seq<string>, m: State, e: StepResult)
    requires Shaped(m)
    requires e.outcome.Traced? <==> Add(ops, m.(pc := m.pc + 1)).Some?
    requires e.outcome.Traced? ==> e.next == Add(ops, m.(pc := m.pc + 1)).value
    ensures e.outcome.Traced? <==> Reg(ops, 0).Some? && Reg(ops, 1).Some? && Reg(ops, 2).Some?
    ensures e.outcome.Traced? ==>
            var dest, a, b := Reg(ops, 0).value, Reg(ops, 1).value, Reg(ops, 2).value;
            e.next == m.(pc := m.pc + 1, regs := m.regs[dest := m.regs[a] + m.regs[b]])
  {
    if Reg(ops, 0).Some? && Reg(ops, 1).Some? && Reg(ops, 2).Some? {
      AddAfterFetch(ops, m, Reg(ops, 0).value, Reg(ops, 1).value, Reg(ops, 2).value);
    }
  }

  /** ADD on the state whose pc has already moved on. */
  lemma {:induction false} AddAfterFetch(args: seq<string>, m: State, dest: nat, a: nat, b: nat)
    requires Shaped(m)
    requires Reg(args, 0) == Some(dest) && Reg(args, 1) == Some(a) && Reg(args, 2) == Some(b)
    ensures Add(args, m.(pc := m.pc + 1)) == Some(m.(pc := m.pc + 1, regs := m.regs[dest := m.regs[a] + m.regs[b]]))
  {
    AddInRegisters(args, m.(pc := m.pc + 1), dest, a, b);
    AdvanceThenAdd(m, dest, a, b);
  }

  /** Moving pc on and then writing a sum is the same as doing both at once. */
  lemma {:induction false} AdvanceThenAdd(m: State, dest: nat, a: nat, b: nat)
    requires Shaped(m) && dest < REGISTER_COUNT && a < REGISTER_COUNT && b < REGISTER_COUNT
    ensures var m1 := m.(pc := m.pc + 1);
            m1.(regs := m1.regs[dest := m1.regs[a] + m1.regs[b]]) == m.(pc := m.pc + 1, regs := m.regs[dest := m.regs[a] + m.regs[b]])
  {
  }

  /** A fetched ADD succeeds exactly when `Add` does, with `Add`'s result. */
  lemma {:induction false} ExecAdd(p: Parsed, m: State)
    requires Runs(p, m, "ADD")
    ensures Exec(p, m).outcome.Traced? <==> Add(Ops(p, m), m.(pc := m.pc + 1)).Some?
    ensures Exec(p, m).outcome.Traced? ==> Exec(p, m).next == Add(Ops(p, m), m.(pc := m.pc + 1)).value
  {
    ExecFetched(p, m, "ADD");
    ExecuteDispatch(p.labels, Fetched(p, m).value, m.(pc := m.pc + 1));
  }

  /**
   * SLT executes exactly when all three operands name registers; then only
   * `dest` changes, to exactly 0 or 1, and to 1 exactly when `a < b`.
   */
  lemma {:induction false} SetLessThanEffect(p: Parsed, m: State)
    requires Runs(p, m, "SLT")
    ensures Exec(p, m).outcome.Traced? <==> Reg(Ops(p, m), 0).Some? && Reg(Ops(p, m), 1).Some? && Reg(Ops(p, m), 2).Some?
    ensures Exec(p, m).outcome.Traced? ==>
            var dest, a, b := Reg(Ops(p, m), 0).value, Reg(Ops(p, m), 1).value, Reg(Ops(p, m), 2).value;
            && (Exec(p, m).next.regs[dest] == 0 || Exec(p, m).next.regs[dest] == 1)
            && (Exec(p, m).next.regs[dest] == 1 <==> m.regs[a] < m.regs[b])
            && (forall j :: 0 <= j < REGISTER_COUNT && j != dest ==> Exec(p, m).next.regs[j] == m.regs[j])
            && Exec(p, m).next.memory == m.memory && Exec(p, m).next.pc == m.pc + 1
  {
    ExecFetched(p, m, "SLT");
    ExecuteDispatch(p.labels, Fetched(p, m).value, m.(pc := m.pc + 1));
  }

  /**
   * BZ executes exactly when its condition names a register, the label
   * operand is present, and the label is defined if the branch is taken;
   * registers and memory are untouched, and pc becomes the label's index
   * exactly when the condition register holds 0, `old pc + 1` otherwise.
   */
  lemma {:induction false} BranchZeroEffect(p: Parsed, m: State)
    requires Runs(p, m, "BZ")
    ensures Exec(p, m).outcome.Traced? <==>
            Reg(Ops(p, m), 0).Some? && |Ops(p, m)| >= 2 &&
            (m.regs[Reg(Ops(p, m), 0).value] == 0 ==> Ops(p, m)[1] in p.labels)
    ensures Exec(p, m).outcome.Traced? ==>
            && Exec(p, m).next.regs == m.regs && Exec(p, m).next.memory == m.memory && Exec(p, m).next.running
            && Exec(p, m).next.pc ==
               if m.regs[Reg(Ops(p, m), 0).value] == 0 then p.labels[Ops(p, m)[1]] else m.pc + 1
  {
    ExecFetched(p, m, "BZ");
    ExecuteDispatch(p.labels, Fetched(p, m).value, m.(pc := m.pc + 1));
  }

  /**
   * BAL executes exactly when its link names a register, the target operand
   * is present, and a target that is no label has an existing base; then the
   * link register receives `old pc + 1` and pc becomes the label's index or,
   * when the target is no label, its effective address computed from the
   * registers before the link write. Nothing else changes.
   */
  lemma {:induction false} BranchAndLinkEffect(p: Parsed, m: State)
    requires Runs(p, m, "BAL")
    ensures Exec(p, m).outcome.Traced? <==>
            Reg(Ops(p, m), 0).Some? && |Ops(p, m)| >= 2 &&
            (Ops(p, m)[1] !in p.labels ==> EffectiveAddress(Ops(p, m)[1], m.regs).Some?)
    ensures Exec(p, m).outcome.Traced? ==>
            && Exec(p, m).next.regs == m.regs[Reg(Ops(p, m), 0).value := m.pc + 1]
            && Exec(p, m).next.memory == m.memory && Exec(p, m).next.running
            && Exec(p, m).next.pc ==
               if Ops(p, m)[1] in p.labels then p.labels[Ops(p, m)[1]]
               else EffectiveAddress(Ops(p, m)[1], m.regs).value
  {
    ExecFetched(p, m, "BAL");
    ExecuteDispatch(p.labels, Fetched(p, m).value, m.(pc := m.pc + 1));
  }

  /** HLT: clears the run flag, advances pc, changes no register or memory cell. */
  lemma {:induction false} HaltEffect(p: Parsed, m: State)
    requires Runs(p, m, "HLT")
    ensures Exec(p, m).outcome.Traced?
    ensures Exec(p, m).next == m.(pc := m.pc + 1, running := false)
  {
  }

  /** An opcode outside the vocabulary is a silent no-op apart from the pc advance. */
  lemma {:induction false} UnknownOpcodeEffect(p: Parsed, m: State, op: string)
    requires Runs(p, m, op)
    requires op !in ["LDA", "LD", "ST", "ADD", "SLT", "BZ", "BAL", "HLT"]
    ensures Exec(p, m).outcome.Traced?
    ensures Exec(p, m).next == m.(pc := m.pc + 1)
  {
  }

  /** Every opcode but BZ and BAL, unknown ones included, leaves pc at `old pc + 1`. */
  lemma {:induction false} PcAdvancesUnlessBranch(p: Parsed, m: State, op: string)
    requires Runs(p, m, op) && Exec(p, m).outcome.Traced?
    requires op != "BZ" && op != "BAL"
    ensures Exec(p, m).next.pc == m.pc + 1
  {
    ExecFetched(p, m, op);
  }

  /**
   * A store followed by a load through the same address operand reads back
   * the stored register (ST leaves the registers, hence the address, alone).
   */
  lemma {:induction false} StoreThenLoad(labels: map<string, int>, st: Instruction, ld: Instruction,
                      m: State, m1: State, m2: State, src: nat, dst: nat)
    requires Shaped(m) && st.opcode == "ST" && ld.opcode == "LD"
    requires |st.operands| >= 2 && |ld.operands| >= 2 && st.operands[1] == ld.operands[1]
    requires Reg(st.operands, 0) == Some(src) && Reg(ld.operands, 0) == Some(dst)
    requires Execute(labels, st, m) == Some(m1) && Execute(labels, ld, m1) == Some(m2)
    ensures m2.regs[dst] == m.regs[src]
    ensures m2.memory == m1.memory
  {
    assert m1.regs == m.regs;
  }

  /**
   * Call and return: a BAL that links through `$r` (r in 1..3), followed by
   * a `BAL x, 0($r)` at the call's target, resumes at the instruction after
   * the call.
   */
  lemma {:induction false} CallAndReturn(p: Parsed, m: State, link: nat)
    requires Runs(p, m, "BAL") && Exec(p, m).outcome.Traced?
    requires Reg(Fetched(p, m).value.operands, 0) == Some(link) && 1 <= link
    requires Runs(p, Exec(p, m).next, "BAL") && Exec(p, Exec(p, m).next).outcome.Traced?
    requires |Fetched(p, Exec(p, m).next).value.operands| >= 2
    requires Fetched(p, Exec(p, m).next).value.operands[1] !in p.labels
    requires MatchBaseOffset(Fetched(p, Exec(p, m).next).value.operands[1]) == Some((0, link))
    ensures Exec(p, Exec(p, m).next).next.pc == m.pc + 1
  {
    var m1 := Exec(p, m).next;
    BranchAndLinkEffect(p, m);
    assert m1.regs[link] == m.pc + 1;
    BranchAndLinkEffect(p, m1);
  }

  /**
   * The `$0` quirk on return: `BAL x, 0($0)` jumps to index 0 whatever was
   * linked into `$0`, because `$0` reads as 0 in address computation.
   */
  lemma {:induction false} ReturnThroughZeroGoesToZero(p: Parsed, m: State)
    requires Runs(p, m, "BAL") && Exec(p, m).outcome.Traced?
    requires |Fetched(p, m).value.operands| >= 2 && Fetched(p, m).value.operands[1] !in p.labels
    requires MatchBaseOffset(Fetched(p, m).value.operands[1]) == Some((0, 0))
    ensures Exec(p, m).next.pc == 0
  {
    BranchAndLinkEffect(p, m);
  }

  /** What the driver loop `while sim.running: sim.step()` (main.py:169-170) produces. */
  datatype RunResult = RunResult(final: State, trace: seq<TraceRecord>, faulted: bool)

  /**
   * The driver loop with at most `fuel` calls to `step()`: it stops when the
   * run flag is clear, and a fault ends it (the source's exception escapes).
   */
  function RunFrom(p: Parsed, m: State, fuel: nat): (r: RunResult)
    requires Shaped(m)
    ensures Shaped(r.final)
    ensures |r.trace| <= fuel
    ensures r.faulted || !r.final.running || |r.trace| == fuel
    ensures r.final.running ==> m.running
    ensures r.faulted ==> r.final.running
    decreases fuel
  {
    if fuel == 0 || !m.running then RunResult(m, [], false)
    else
      var s := Exec(p, m);
      match s.outcome
      case Fault => FaultKeepsState(p, m); RunResult(s.next, [], true)
      case Stopped => RunResult(s.next, [], false)
      case Traced(record) =>
        var rest := RunFrom(p, s.next, fuel - 1);
        RunResult(rest.final, [record] + rest.trace, rest.faulted)
  }

  /**
   * One call to `step()` inside the driver loop: a fault ends the run, a stop
   * leaves a state the loop does not go on from, and a traced step is
   * followed by the rest of the run with one step less.
   */
  lemma {:induction false} RunFromStep(p: Parsed, m: State, fuel: nat, outcome: Outcome, next: State)
    requires Shaped(m) && fuel > 0 && m.running
    requires Exec(p, m) == StepResult(outcome, next)
    ensures outcome.Fault? ==> RunFrom(p, m, fuel) == RunResult(next, [], true)
    ensures outcome.Stopped? ==> RunFrom(p, m, fuel) == RunFrom(p, next, fuel - 1)
    ensures outcome.Traced? ==>
              RunFrom(p, m, fuel) == RunResult(RunFrom(p, next, fuel - 1).final,
                                               [outcome.record] + RunFrom(p, next, fuel - 1).trace,
                                               RunFrom(p, next, fuel - 1).faulted)
  {
  }

  /**
   * The same turn seen from a run already under way whose trace so far is
   * `trace`, where `here` is the run from the state before the step and
   * `rest` the run from the state after it: a fault ends the run with that
   * trace; otherwise the run goes on as `rest`, after the step's record, if
   * it printed one, is appended to the trace (`extended`).
   */
  lemma {:induction false} TraceTurn(outcome: Outcome, next: State, here: RunResult, rest: RunResult,
                                     trace: seq<TraceRecord>, extended: seq<TraceRecord>, result: RunResult)
    requires outcome.Fault? ==> here == RunResult(next, [], true)
    requires outcome.Stopped? ==> here == rest
    requires outcome.Traced? ==> here == RunResult(rest.final, [outcome.record] + rest.trace, rest.faulted)
    requires result == RunResult(here.final, trace + here.trace, here.faulted)
    requires extended == if outcome.Traced? then trace + [outcome.record] else trace
    ensures outcome.Fault? ==> result == RunResult(next, trace, true)
    ensures !outcome.Fault? ==> result == RunResult(rest.final, extended + rest.trace, rest.faulted)
  {
    if outcome.Fault? {
      assert trace + [] == trace;
    } else if outcome.Traced? {
      assert trace + ([outcome.record] + rest.trace) == extended + rest.trace;
    }
  }

  /**
   * A program that starts with HLT executes exactly that instruction from the
   * initial state: one trace line at pc 0 with all registers 0, then the
   * loop ends with pc 1 and memory untouched.
   */
  lemma {:induction false} HaltFirstRunsOnce(p: Parsed, fuel: nat)
    requires |p.instructions| >= 1 && p.instructions[0].opcode == "HLT" && fuel >= 1
    ensures RunFrom(p, Initial(), fuel) ==
            RunResult(Initial().(pc := 1, running := false),
                      [TraceRecord(0, p.instructions[0].raw, Initial().regs)], false)
  {
    HaltEffect(p, Initial());
  }
}

=== FILE: parser.dfy ===
/**
 * The single-pass SN/X parser (snx/parser.py `parse_code`, repeated as
 * `SNXSimulator._parse_code` in main.py): comment stripping, label binding
 * and tokenizing, one source line at a time.
 */
module Parser {
  import opened Wrappers
  import opened Text

  /** One decoded source line: upper-cased opcode, operand tokens, and the text they came from. */
  datatype Instruction = Instruction(opcode: string, operands: seq<string>, raw: string)

  /** What one source line contributes: the label it binds, if any, and the instruction it emits, if any. */
  datatype LineParse = LineParse(labelName: Option<string>, inst: Option<Instruction>)

  /** The parser's output: the instruction list and the label table. */
  datatype Parsed = Parsed(instructions: seq<Instruction>, labels: map<string, int>)

  /** Text without whitespace at either end. */
  predicate Trimmed(s: string) {
    s == [] || (!IsSpace(s[0]) && !IsSpace(s[|s| - 1]))
  }

  /**
   * What every emitted instruction satisfies: `raw` is non-empty, trimmed and
   * free of `;`; `raw` is cut at its maximal runs of commas and whitespace
   * into the opcode as written followed by the operands; the opcode is that
   * first piece upper-cased, so it holds no separator and no lower-case letter.
   */
  ghost predicate WellFormed(inst: Instruction) {
    var raw, n := inst.raw, |inst.opcode|;
    && raw != [] && Trimmed(raw) && ';' !in raw
    && n <= |raw| && inst.opcode == Upper(raw[..n])
    && NoSep(inst.opcode) && (forall k :: 0 <= k < n ==> !IsLower(inst.opcode[k]))
    && (exists runs :: Cut(raw, [raw[..n]] + inst.operands, runs))
  }

  /** A bound label name: trimmed, and free of `:` and `;`. */
  predicate GoodLabel(name: string) {
    Trimmed(name) && ':' !in name && ';' !in name
  }

  /** Every label value lies in `0..len(instructions)`. */
  predicate LabelsBounded(p: Parsed) {
    forall name :: name in p.labels ==> 0 <= p.labels[name] <= |p.instructions|
  }

  ghost predicate AllWellFormed(insts: seq<Instruction>) {
    forall inst :: inst in insts ==> WellFormed(inst)
  }

  /** Every line result that carries an instruction carries a well-formed one. */
  ghost predicate LinesWellFormed(lps: seq<LineParse>) {
    forall k :: 0 <= k < |lps| && lps[k].inst.Some? ==> WellFormed(lps[k].inst.value)
  }

  /** `line.split(';')[0].strip()`: the line without its comment and surrounding whitespace. */
  function CodeText(line: string): (r: string)
    ensures Trimmed(r) && ';' !in r
  {
    var k := IndexOf(line, ';');
    IndexOfFirst(line, ';');
    StripKeepsMissing(line[..k], ';');
    Strip(line[..k])
  }

  lemma {:induction false} UpperKeepsTokenChars(t: string)
    requires NoSep(t)
    ensures NoSep(Upper(t))
  {
    forall k | 0 <= k < |t| ensures !IsSep(Upper(t)[k]) {
      assert !IsSep(t[k]);
    }
  }

  /** Tokenize a comment-free text into an instruction (snx/parser.py:32-36). */
  function Decode(text: string): Instruction
  {
    var parts := Tokenize(text);
    Instruction(Upper(parts[0]), parts[1..], text)
  }

  /**
   * The label part and the code part of a comment-free text
   * (snx/parser.py:25-28): with a `:`, the stripped text before the first `:`
   * and the stripped text after it; without one, no label and the whole text.
   */
  function SplitLabel(text: string): (Option<string>, string)
  {
    if ':' in text then
      var k := IndexOf(text, ':');
      (Some(Strip(text[..k])), Strip(text[k + 1..]))
    else (None, text)
  }

  /**
   * What a comment-free text contributes (snx/parser.py:22-36): its label,
   * if any, and an instruction decoded from its code part unless that is
   * empty. An empty text has neither, which is the `continue` at line 22.
   */
  function ParseText(text: string): LineParse
  {
    var (name, code) := SplitLabel(text);
    LineParse(name, if code == [] then None else Some(Decode(code)))
  }

  /** One iteration of the parser loop (snx/parser.py:20-38). */
  function ParseLine(line: string): LineParse
  {
    ParseText(CodeText(line))
  }

  /** Tokenizing a non-empty trimmed comment-free text always yields a well-formed instruction. */
  lemma {:induction false} DecodeWellFormed(text: string)
    requires text != [] && Trimmed(text) && ';' !in text
    ensures WellFormed(Decode(text)) && Decode(text).raw == text
  {
    var parts := Tokenize(text);
    TokenizeCut(text);
    TokenizeFirst(text);
    var n := |parts[0]|;
    assert text[..n] == parts[0];
    assert [text[..n]] + parts[1..] == parts;
    assert NoSep(parts[0]);
    UpperKeepsTokenChars(parts[0]);
    assert Cut(text, [text[..n]] + parts[1..], SepRuns(text));
  }

  /**
   * Splitting a trimmed comment-free text: a label exactly when the text has
   * a `:`, the label trimmed and free of `:` and `;`; the code part trimmed
   * and free of `;`, and the whole text when there is no label.
   */
  lemma {:induction false} SplitLabelFacts(text: string)
    requires Trimmed(text) && ';' !in text
    ensures SplitLabel(text).0.Some? <==> ':' in text
    ensures SplitLabel(text).0.Some? ==> GoodLabel(SplitLabel(text).0.value)
    ensures SplitLabel(text).0.None? ==> SplitLabel(text).1 == text
    ensures Trimmed(SplitLabel(text).1) && ';' !in SplitLabel(text).1
  {
    if ':' in text {
      var k := IndexOf(text, ':');
      IndexOfFirst(text, ':');
      LabelText(text, k);
      SliceKeepsMissing(text, k + 1, ';');
      StripKeepsMissing(text[k + 1..], ';');
    }
  }

  /** A blank or comment-only line contributes nothing. */
  lemma {:induction false} ParseLineBlank(line: string)
    requires CodeText(line) == []
    ensures ParseLine(line) == LineParse(None, None)
  {
  }

  /**
   * A line binds a label exactly when its comment-free text has a `:`; the
   * label is trimmed and free of `:` and `;`.
   */
  lemma {:induction false} ParseLineLabel(line: string)
    ensures ParseLine(line).labelName.Some? <==> ':' in CodeText(line)
    ensures ParseLine(line).labelName.Some? ==> GoodLabel(ParseLine(line).labelName.value)
    ensures ParseLine(line).labelName == SplitLabel(CodeText(line)).0
  {
    SplitLabelFacts(CodeText(line));
  }

  /** A line whose code reads `pre:post` binds the label `pre`, stripped. */
  lemma {:induction false} ParseLineLabelName(line: string, pre: string, post: string)
    requires ':' !in pre && CodeText(line) == pre + [':'] + post
    ensures ParseLine(line).labelName == Some(Strip(pre))
  {
    SplitLabelAt(pre, post);
  }

  /** The instruction a text emits, if any, is well formed and its `raw` is the code part. */
  lemma {:induction false} ParseTextInstruction(text: string)
    requires Trimmed(text) && ';' !in text
    ensures ParseText(text).inst.Some? ==>
              WellFormed(ParseText(text).inst.value) && ParseText(text).inst.value.raw == SplitLabel(text).1
  {
    SplitLabelFacts(text);
    var code := SplitLabel(text).1;
    if code != [] {
      DecodeWellFormed(code);
    }
  }

  /**
   * The instruction a line emits, if any, is well formed; its `raw` is the
   * code part of the comment-free text, which is that whole text when the
   * line has no label.
   */
  lemma {:induction false} ParseLineInstruction(line: string)
    ensures ParseLine(line).inst.Some? ==> WellFormed(ParseLine(line).inst.value)
    ensures ParseLine(line).inst.Some? ==> ParseLine(line).inst.value.raw == SplitLabel(CodeText(line)).1
    ensures ParseLine(line).inst.Some? && ParseLine(line).labelName.None? ==>
              ParseLine(line).inst.value.raw == CodeText(line)
  {
    SplitLabelFacts(CodeText(line));
    ParseTextInstruction(CodeText(line));
  }

  /** Stripping keeps a character out when it was out of the text. */
  lemma {:induction false} StripKeepsMissing(s: string, c: char)
    requires c !in s
    ensures c !in Strip(s)
  {
    assert forall x :: x in Strip(s) ==> x in s;
  }

  /** A slice of a text without `c` has no `c` either. */
  lemma {:induction false} SliceKeepsMissing(s: string, i: nat, c: char)
    requires i <= |s| && c !in s
    ensures c !in s[i..] && c !in s[..i]
  {
    assert forall x :: x in s[i..] ==> x in s;
    assert forall x :: x in s[..i] ==> x in s;
  }

  /** The text before the first `:` of a comment-free text strips to a good label. */
  lemma {:induction false} LabelText(text: string, k: nat)
    requires ';' !in text && k <= |text| && ':' !in text[..k]
    ensures GoodLabel(Strip(text[..k]))
  {
    SliceKeepsMissing(text, k, ';');
    StripKeepsMissing(text[..k], ';');
    StripKeepsMissing(text[..k], ':');
  }

  /** A line with a comment keeps the text before its first `;`, stripped. */
  lemma {:induction false} CodeTextComment(pre: string, post: string)
    requires ';' !in pre
    ensures CodeText(pre + [';'] + post) == Strip(pre)
  {
    var line := pre + [';'] + post;
    IndexOfSplit(pre, ';', post);
    assert line[..|pre|] == pre;
  }

  /** A line without a comment keeps all its text, stripped. */
  lemma {:induction false} CodeTextNoComment(line: string)
    requires ';' !in line
    ensures CodeText(line) == Strip(line)
  {
    assert line[..|line|] == line;
  }

  /**
   * A text with a `:` binds the stripped text before its first `:` and keeps
   * the stripped text after it as code.
   */
  lemma {:induction false} SplitLabelAt(pre: string, post: string)
    requires ':' !in pre
    ensures SplitLabel(pre + [':'] + post) == (Some(Strip(pre)), Strip(post))
  {
    var text := pre + [':'] + post;
    IndexOfSplit(pre, ':', post);
    assert text[|pre|] == ':';
    assert text[..|pre|] == pre && text[|pre| + 1..] == post;
  }

  /** The instructions one line result emits: none or one. */
  function Emitted(lp: LineParse): seq<Instruction>
  {
    match lp.inst
    case None => []
    case Some(inst) => [inst]
  }

  /** The parser's state after one more line: a label binds the current instruction count. */
  function Feed(p: Parsed, lp: LineParse): Parsed
  {
    var labels := match lp.labelName
      case None => p.labels
      case Some(name) => p.labels[name := |p.instructions|];
    Parsed(p.instructions + Emitted(lp), labels)
  }

  /** The parser's state after the given line results, in order. */
  function Assemble(lps: seq<LineParse>): Parsed
  {
    if lps == [] then Parsed([], map[])
    else Feed(Assemble(lps[..|lps| - 1]), lps[|lps| - 1])
  }

  /** Each line's contribution, in order. */
  function ParseAll(lines: seq<string>): (lps: seq<LineParse>)
    ensures |lps| == |lines|
    ensures forall k :: 0 <= k < |lines| ==> lps[k] == ParseLine(lines[k])
  {
    seq(|lines|, k requires 0 <= k < |lines| => ParseLine(lines[k]))
  }

  /** `code_str.strip().split('\n')` */
  function Lines(code: string): seq<string>
  {
    SplitOn(Strip(code), '\n')
  }

  /** What `parse_code(code)` returns. */
  function Parse(code: string): Parsed
  {
    Assemble(ParseAll(Lines(code)))
  }

  /**
   * `parse_code` (snx/parser.py:14-39): total; every label lies in
   * `0..len(instructions)` and every instruction is well formed.
   */
  method ParseCode(code: string) returns (instructions: seq<Instruction>, labels: map<string, int>)
    ensures Parsed(instructions, labels) == Parse(code)
    ensures LabelsBounded(Parsed(instructions, labels))
    ensures AllWellFormed(instructions)
  {
    var lines := Lines(code);
    ghost var lps := ParseAll(lines);
    instructions, labels := [], map[];
    var actualLineIdx := 0;
    for i := 0 to |lines|
      invariant Parsed(instructions, labels) == Assemble(lps[..i])
      invariant actualLineIdx == |instructions|
    {
      AssembleNext(lps, i);
      instructions, labels, actualLineIdx := FeedLine(lines[i], instructions, labels, actualLineIdx);
    }
    assert lps[..|lines|] == lps;
    ParseSound(code);
  }

  /** Every label of a parse lies in `0..len(instructions)` and every instruction is well formed. */
  lemma {:induction false} ParseSound(code: string)
    ensures LabelsBounded(Parse(code)) && AllWellFormed(Parse(code).instructions)
  {
    var lps := ParseAll(Lines(code));
    LabelsInRange(lps);
    ParseAllWellFormed(Lines(code));
    InstructionsWellFormed(lps);
  }

  /**
   * One pass of `parse_code`'s loop body (snx/parser.py:20-37): the line's
   * label and instruction, if any, are added to the parser state.
   */
  method FeedLine(l: string, instructions: seq<Instruction>, labels: map<string, int>, actualLineIdx: int)
    returns (instructions': seq<Instruction>, labels': map<string, int>, actualLineIdx': int)
    requires actualLineIdx == |instructions|
    ensures Parsed(instructions', labels') == Feed(Parsed(instructions, labels), ParseLine(l))
    ensures actualLineIdx' == |instructions'|
  {
    instructions', labels', actualLineIdx' := instructions, labels, actualLineIdx;
    ParseLineSteps(l);
    var line := CodeText(l);
    if line == [] {
      return;
    }
    if ':' in line {
      var k := IndexOf(line, ':');
      labels' := labels'[Strip(line[..k]) := actualLineIdx'];
      line := Strip(line[k + 1..]);
    }
    if line == [] {
      return;
    }
    instructions' := instructions' + [Decode(line)];
    actualLineIdx' := actualLineIdx' + 1;
  }

  /** The three ways one loop iteration ends: a blank line, a line with a `:`, a line without one. */
  lemma {:induction false} ParseLineSteps(l: string)
    ensures CodeText(l) == [] ==> ParseLine(l) == LineParse(None, None)
    ensures CodeText(l) != [] && ':' in CodeText(l) ==>
              var line := CodeText(l);
              var k := IndexOf(line, ':');
              var code := Strip(line[k + 1..]);
              ParseLine(l) == LineParse(Some(Strip(line[..k])), if code == [] then None else Some(Decode(code)))
    ensures CodeText(l) != [] && ':' !in CodeText(l) ==> ParseLine(l) == LineParse(None, Some(Decode(CodeText(l))))
  {
  }

  /** One more line result feeds one more line into the parser state. */
  lemma {:induction false} AssembleNext(lps: seq<LineParse>, i: nat)
    requires i < |lps|
    ensures Assemble(lps[..i + 1]) == Feed(Assemble(lps[..i]), lps[i])
  {
    assert lps[..i + 1][..i] == lps[..i];
  }

  /** Every label value lies in `0..len(instructions)`. */
  lemma {:induction false} LabelsInRange(lps: seq<LineParse>)
    ensures LabelsBounded(Assemble(lps))
  {
    if lps != [] {
      LabelsInRange(lps[..|lps| - 1]);
    }
  }

  /** Every line of a program yields a well-formed instruction, if any. */
  lemma {:induction false} ParseAllWellFormed(lines: seq<string>)
    ensures LinesWellFormed(ParseAll(lines))
  {
    forall k | 0 <= k < |lines| ensures ParseLine(lines[k]).inst.Some? ==> WellFormed(ParseLine(lines[k]).inst.value) {
      ParseLineInstruction(lines[k]);
    }
  }

  /** Every emitted instruction is one some line produced, so it is well formed. */
  lemma {:induction false} InstructionsWellFormed(lps: seq<LineParse>)
    requires LinesWellFormed(lps)
    ensures AllWellFormed(Assemble(lps).instructions)
  {
    if lps != [] {
      InstructionsWellFormed(lps[..|lps| - 1]);
    }
  }

  /**
   * Instructions appear in source order, one per line that emits one: the
   * instructions of a concatenation are the concatenation of the instructions.
   */
  lemma {:induction false} InstructionsAppend(a: seq<LineParse>, b: seq<LineParse>)
    ensures Assemble(a + b).instructions == Assemble(a).instructions + Assemble(b).instructions
    decreases |b|
  {
    if b == [] {
      assert a + b == a;
    } else {
      var n := |b| - 1;
      assert (a + b)[..|a + b| - 1] == a + b[..n];
      InstructionsAppend(a, b[..n]);
    }
  }

  /** A blank or comment-only line changes nothing: no instruction, no label, no index advance. */
  lemma {:induction false} BlankLineIgnored(lines: seq<string>, line: string)
    requires CodeText(line) == []
    ensures Assemble(ParseAll(lines + [line])) == Assemble(ParseAll(lines))
  {
    ParseLineBlank(line);
    assert ParseAll(lines + [line]) == ParseAll(lines) + [LineParse(None, None)];
    assert (ParseAll(lines) + [LineParse(None, None)])[..|lines|] == ParseAll(lines);
  }

  /** A label's last definition binds the number of instructions emitted before its line. */
  lemma {:induction false} LabelIndex(lps: seq<LineParse>, i: nat, name: string)
    requires i < |lps| && lps[i].labelName == Some(name)
    requires forall j :: i < j < |lps| ==> lps[j].labelName != Some(name)
    ensures name in Assemble(lps).labels
    ensures Assemble(lps).labels[name] == |Assemble(lps[..i]).instructions|
    decreases |lps|
  {
    var n := |lps| - 1;
    var front := lps[..n];
    if i < n {
      assert front[i] == lps[i];
      forall j | i < j < |front| ensures front[j].labelName != Some(name) {
        assert front[j] == lps[j];
      }
      LabelIndex(front, i, name);
      assert front[..i] == lps[..i];
    } else {
      assert front == lps[..i];
    }
  }

  /**
   * A label resolves to the index its last definition saw: the number of
   * instructions emitted by the lines before it; from that index on the
   * instruction list is exactly what the defining line and the lines after
   * it emit. So the label names the instruction on its own line, or, when
   * that line has none, the next instruction emitted later, or
   * `len(instructions)` when no instruction follows.
   */
  lemma {:induction false} LabelResolution(lps: seq<LineParse>, i: nat, name: string)
    requires i < |lps| && lps[i].labelName == Some(name)
    requires forall j :: i < j < |lps| ==> lps[j].labelName != Some(name)
    ensures name in Assemble(lps).labels
    ensures Assemble(lps).labels[name] == |Assemble(lps[..i]).instructions|
    ensures && Assemble(lps).labels[name] <= |Assemble(lps).instructions|
            && Assemble(lps).instructions[Assemble(lps).labels[name]..] == Assemble(lps[i..]).instructions
  {
    LabelIndex(lps, i, name);
    assert lps[..i] + lps[i..] == lps;
    InstructionsAppend(lps[..i], lps[i..]);
  }

  /** A label alone on its line names the first instruction emitted by the lines after it. */
  lemma {:induction false} LabelOnlyNamesNext(lps: seq<LineParse>, i: nat, name: string)
    requires i < |lps| && lps[i] == LineParse(Some(name), None)
    requires forall j :: i < j < |lps| ==> lps[j].labelName != Some(name)
    ensures name in Assemble(lps).labels
    ensures && 0 <= Assemble(lps).labels[name] <= |Assemble(lps).instructions|
            && Assemble(lps).instructions[Assemble(lps).labels[name]..] == Assemble(lps[i + 1..]).instructions
  {
    LabelResolution(lps, i, name);
    assert Assemble(lps[i..]).instructions == Assemble(lps[i + 1..]).instructions by {
      assert lps[i..] == [lps[i]] + lps[i + 1..];
      InstructionsAppend([lps[i]], lps[i + 1..]);
      assert [lps[i]][..0] == [];
    }
  }

  /**
   * A label defined twice keeps its later index: the earlier definition is
   * overwritten, and the two differ whenever an instruction was emitted in between.
   */
  lemma {:induction false} LabelLastDefinitionWins(lps: seq<LineParse>, i: nat, j: nat, name: string)
    requires i < j < |lps|
    requires lps[i].labelName == Some(name) && lps[j].labelName == Some(name)
    requires forall k :: j < k < |lps| ==> lps[k].labelName != Some(name)
    ensures name in Assemble(lps).labels
    ensures Assemble(lps).labels[name] ==
            |Assemble(lps[..i]).instructions| + |Assemble(lps[i..j]).instructions|
  {
    LabelIndex(lps, j, name);
    assert |Assemble(lps[..j]).instructions| ==
           |Assemble(lps[..i]).instructions| + |Assemble(lps[i..j]).instructions| by {
      assert lps[..i] + lps[i..j] == lps[..j];
      InstructionsAppend(lps[..i], lps[i..j]);
    }
  }

  /** The label table holds exactly the names some line binds. */
  lemma {:induction false} LabelKeys(lps: seq<LineParse>, name: string)
    ensures name in Assemble(lps).labels <==>
            exists j :: 0 <= j < |lps| && lps[j].labelName == Some(name)
  {
    if lps != [] {
      var n := |lps| - 1;
      var front := lps[..n];
      LabelKeys(front, name);
      if exists j :: 0 <= j < |front| && front[j].labelName == Some(name) {
        var j :| 0 <= j < |front| && front[j].labelName == Some(name);
        assert lps[j] == front[j];
      }
      if exists j :: 0 <= j < |lps| && lps[j].labelName == Some(name) {
        var j :| 0 <= j < |lps| && lps[j].labelName == Some(name);
        if j < n {
          assert front[j] == lps[j];
        }
      }
    }
  }
}

=== FILE: simulator.dfy ===
/**
 * The `SNXSimulator` object of main.py:3-127: registers and memory are
 * arrays updated in place, pc and the run flag are fields, and the parsed
 * program is fixed at construction. Every method is proved against the
 * value-level semantics of module `Machine`: `Step` against `Exec`, `Run`
 * against `RunFrom`.
 */
module Simulator {
  import opened Wrappers
  import opened Parser
  import opened Machine

  class SNXSimulator {
    var regs: array<int>
    var memory: array<int>
    var pc: int
    var running: bool
    const instructions: seq<Instruction>
    const labels: map<string, int>

    /** Four registers and 128 memory words, in two separate arrays. */
    ghost predicate Valid()
      reads this
    {
      regs.Length == REGISTER_COUNT && memory.Length == MEMORY_WORDS && regs != memory
    }

    /** The machine state the object holds. */
    function Snapshot(): (m: State)
      reads this, regs, memory
      requires Valid()
      ensures Shaped(m)
    {
      State(regs[..], memory[..], pc, running)
    }

    /** The program the object runs. */
    function Program(): Parsed
    {
      Parsed(instructions, labels)
    }

    /**
     * `__init__` (main.py:4-13): zeroed registers and memory, pc 0, running,
     * and the program parsed from `code`.
     */
    constructor(code: string)
      ensures Valid() && fresh(regs) && fresh(memory)
      ensures Snapshot() == Initial()
      ensures Program() == Parse(code)
      ensures LabelsBounded(Program()) && AllWellFormed(instructions)
    {
      regs := new int[REGISTER_COUNT](_ => 0);
      memory := new int[MEMORY_WORDS](_ => 0);
      pc := 0;
      running := true;
      var insts, table := ParseCode(code);
      instructions := insts;
      labels := table;
      new;
      assert regs[..] == Initial().regs;
      assert memory[..] == Initial().memory;
    }

    /** LDA in place. */
    method LoadAddressInPlace(args: seq<string>) returns (ok: bool)
      requires Valid()
      modifies regs
      ensures Valid()
      ensures LoadAddress(args, old(Snapshot())) == (if ok then Some(Snapshot()) else None)
      ensures !ok ==> Snapshot() == old(Snapshot())
    {
      var dest := Reg(args, 0);
      var addr := Arg(args, 1);
      if dest.None? || addr.None? {
        return false;
      }
      var ea := EffectiveAddress(addr.value, regs[..]);
      if ea.None? {
        return false;
      }
      regs[dest.value] := ea.value;
      ok := true;
    }

    /** LD in place. */
    method LoadInPlace(args: seq<string>) returns (ok: bool)
      requires Valid()
      modifies regs
      ensures Valid()
      ensures Load(args, old(Snapshot())) == (if ok then Some(Snapshot()) else None)
      ensures !ok ==> Snapshot() == old(Snapshot())
    {
      var dest := Reg(args, 0);
      var addr := Arg(args, 1);
      if dest.None? || addr.None? {
        return false;
      }
      var ea := EffectiveAddress(addr.value, regs[..]);
      if ea.None? {
        return false;
      }
      var cell := PyIndex(ea.value, MEMORY_WORDS);
      if cell.None? {
        return false;
      }
      regs[dest.value] := memory[cell.value];
      ok := true;
    }

    /** ST in place. */
    method StoreInPlace(args: seq<string>) returns (ok: bool)
      requires Valid()
      modifies memory
      ensures Valid()
      ensures Store(args, old(Snapshot())) == (if ok then Some(Snapshot()) else None)
      ensures !ok ==> Snapshot() == old(Snapshot())
    {
      var src := Reg(args, 0);
      var addr := Arg(args, 1);
      if src.None? || addr.None? {
        return false;
      }
      var ea := EffectiveAddress(addr.value, regs[..]);
      if ea.None? {
        return false;
      }
      var cell := PyIndex(ea.value, MEMORY_WORDS);
      if cell.None? {
        return false;
      }
      memory[cell.value] := regs[src.value];
      ok := true;
    }

    /** ADD in place. */
    method AddInPlace(args: seq<string>) returns (ok: bool)
      requires Valid()
      modifies regs
      ensures Valid()
      ensures Add(args, old(Snapshot())) == (if ok then Some(Snapshot()) else None)
      ensures !ok ==> Snapshot() == old(Snapshot())
    {
      var dest := Reg(args, 0);
      var a := Reg(args, 1);
      var b := Reg(args, 2);
      if dest.None? || a.None? || b.None? {
        return false;
      }
      ghost var before := Snapshot();
      regs[dest.value] := regs[a.value] + regs[b.value];
      AddYields(args, before, Snapshot(), dest.value, a.value, b.value);
      ok := true;
    }

    /** SLT in place. */
    method SetLessThanInPlace(args: seq<string>) returns (ok: bool)
      requires Valid()
      modifies regs
      ensures Valid()
      ensures SetLessThan(args, old(Snapshot())) == (if ok then Some(Snapshot()) else None)
      ensures !ok ==> Snapshot() == old(Snapshot())
    {
      var dest := Reg(args, 0);
      var a := Reg(args, 1);
      var b := Reg(args, 2);
      if dest.None? || a.None? || b.None? {
        return false;
      }
      regs[dest.value] := if regs[a.value] < regs[b.value] then 1 else 0;
      ok := true;
    }

    /** BZ in place. */
    method BranchZeroInPlace(args: seq<string>) returns (ok: bool)
      requires Valid()
      modifies this`pc
      ensures Valid()
      ensures BranchZero(labels, args, old(Snapshot())) == (if ok then Some(Snapshot()) else None)
      ensures !ok ==> Snapshot() == old(Snapshot())
    {
      var cond := Reg(args, 0);
      var name := Arg(args, 1);
      if cond.None? || name.None? {
        return false;
      }
      if regs[cond.value] == 0 {
        if name.value !in labels {
          return false;
        }
        pc := labels[name.value];
      }
      ok := true;
    }

    /** BAL in place: the target is computed before the link register is written. */
    method BranchAndLinkInPlace(args: seq<string>) returns (ok: bool)
      requires Valid()
      modifies this`pc, regs
      ensures Valid()
      ensures BranchAndLink(labels, args, old(Snapshot())) == (if ok then Some(Snapshot()) else None)
      ensures !ok ==> Snapshot() == old(Snapshot())
    {
      var link := Reg(args, 0);
      var target := Arg(args, 1);
      if link.None? || target.None? {
        return false;
      }
      var targetPc: int;
      if target.value in labels {
        targetPc := labels[target.value];
      } else {
        var ea := EffectiveAddress(target.value, regs[..]);
        if ea.None? {
          return false;
        }
        targetPc := ea.value;
      }
      regs[link.value] := pc;
      pc := targetPc;
      ok := true;
    }

    /** The opcode dispatch of `step()` (main.py:73-123), on the already advanced pc. */
    method ExecuteInPlace(inst: Instruction) returns (ok: bool)
      requires Valid()
      modifies this`pc, this`running, regs, memory
      ensures Valid()
      ensures Execute(labels, inst, old(Snapshot())) == (if ok then Some(Snapshot()) else None)
      ensures !ok ==> Snapshot() == old(Snapshot())
    {
      var op, args := inst.opcode, inst.operands;
      if op == "LDA" {
        ok := LoadAddressInPlace(args);
      } else if op == "LD" {
        ok := LoadInPlace(args);
      } else if op == "ST" {
        ok := StoreInPlace(args);
      } else if op == "ADD" {
        ok := AddInPlace(args);
      } else if op == "SLT" {
        ok := SetLessThanInPlace(args);
      } else if op == "BZ" {
        ok := BranchZeroInPlace(args);
      } else if op == "BAL" {
        ok := BranchAndLinkInPlace(args);
      } else if op == "HLT" {
        running := false;
        ok := true;
      } else {
        ok := true;
      }
    }

    /**
     * `step()` (main.py:57-127): the outcome and the new state are exactly
     * those of `Exec`; the trace record is what the source prints.
     */
    method Step() returns (outcome: Outcome)
      requires Valid()
      modifies this`pc, this`running, regs, memory
      ensures Valid()
      ensures StepResult(outcome, Snapshot()) == Exec(Program(), old(Snapshot()))
    {
      if !running || pc >= |instructions| {
        running := false;
        return Stopped;
      }
      var k := PyIndex(pc, |instructions|);
      if k.None? {
        return Fault;
      }
      var inst := instructions[k.value];
      ghost var m := Snapshot();
      assert Fetched(Program(), m) == Some(inst);
      ExecFetched(Program(), m, inst.opcode);
      var currentPc := pc;
      pc := pc + 1;
      assert Snapshot() == m.(pc := m.pc + 1);
      var ok := ExecuteInPlace(inst);
      if !ok {
        return Fault;
      }
      outcome := Traced(TraceRecord(currentPc, inst.raw, regs[..]));
    }

    /**
     * The driver loop `while sim.running: sim.step()` (main.py:169-170) with
     * at most `fuel` steps; a fault ends it.
     */
    method Run(fuel: nat) returns (trace: seq<TraceRecord>, faulted: bool)
      requires Valid()
      modifies this`pc, this`running, regs, memory
      ensures Valid()
      ensures RunResult(Snapshot(), trace, faulted) == RunFrom(Program(), old(Snapshot()), fuel)
    {
      trace, faulted := [], false;
      ghost var P, cur := Program(), Snapshot();
      ghost var result := RunFrom(P, cur, fuel);
      var left := fuel;
      assert trace + result.trace == result.trace;
      while left > 0 && running
        invariant Valid() && cur == Snapshot()
        invariant result == RunResult(RunFrom(P, cur, left).final, trace + RunFrom(P, cur, left).trace,
                                      RunFrom(P, cur, left).faulted)
      {
        var outcome := Step();
        ghost var before := trace;
        if outcome.Traced? {
          trace := trace + [outcome.record];
        }
        RunFromStep(P, cur, left, outcome, Snapshot());
        TraceTurn(outcome, Snapshot(), RunFrom(P, cur, left), RunFrom(P, Snapshot(), left - 1), before, trace, result);
        if outcome.Fault? {
          faulted := true;
          return;
        }
        cur := Snapshot();
        left := left - 1;
      }
    }
  }
}

=== FILE: text.dfy ===
/**
 * Character classes and the string operations the parser and the engine
 * rely on: Python's `str.strip`, `str.split`, `str.upper`, `re.split(r'[,\s]+', …)`
 * and `int(…)`, restricted to ASCII text.
 */
module Text {
  import opened Wrappers

  /** Python's `str.isspace` on ASCII: tab, newline, vertical tab, form feed,
      carriage return, the four information separators and the space. */
  predicate IsSpace(c: char) {
    var n := c as int;
    n == 32 || 9 <= n <= 13 || 28 <= n <= 31
  }

  /** The class `[,\s]` the tokenizer splits on. */
  predicate IsSep(c: char) {
    c == ',' || IsSpace(c)
  }

  predicate IsTokenChar(c: char) {
    !IsSep(c)
  }

  predicate IsDigit(c: char) {
    '0' <= c <= '9'
  }

  predicate IsLower(c: char) {
    'a' <= c <= 'z'
  }

  /** The character classes a run can be measured in. */
  datatype CharClass = Space | Sep | TokenChar | Digit

  predicate InClass(c: char, cls: CharClass) {
    match cls
    case Space => IsSpace(c)
    case Sep => IsSep(c)
    case TokenChar => IsTokenChar(c)
    case Digit => IsDigit(c)
  }

  predicate NoSep(t: string) {
    forall k :: 0 <= k < |t| ==> !IsSep(t[k])
  }

  predicate AllDigits(s: string) {
    forall k :: 0 <= k < |s| ==> IsDigit(s[k])
  }

  /** Length of the longest prefix of `s` whose characters all lie in `cls`. */
  function SpanLen(s: string, cls: CharClass): (n: nat)
    ensures n <= |s|
    ensures n == |s| || !InClass(s[n], cls)
  {
    if s == [] || !InClass(s[0], cls) then 0 else 1 + SpanLen(s[1..], cls)
  }

  /** Every character of the measured prefix lies in the class. */
  lemma {:induction false} SpanLenPrefix(s: string, cls: CharClass)
    ensures forall k :: 0 <= k < SpanLen(s, cls) ==> InClass(s[k], cls)
    decreases |s|
  {
    if s != [] && InClass(s[0], cls) {
      SpanLenPrefix(s[1..], cls);
      assert forall k :: 1 <= k < SpanLen(s, cls) ==> s[k] == s[1..][k - 1];
    }
  }

  /** Position of the first `c` in `s`, or `|s|` when there is none. */
  function IndexOf(s: string, c: char): (i: nat)
    ensures i <= |s|
    ensures i < |s| ==> s[i] == c
    ensures i == |s| <==> c !in s
  {
    if s == [] then 0
    else if s[0] == c then 0
    else 1 + IndexOf(s[1..], c)
  }

  /** The position found is the first: no `c` comes before it. */
  lemma {:induction false} IndexOfFirst(s: string, c: char)
    ensures c !in s[..IndexOf(s, c)]
    decreases |s|
  {
    if s != [] && s[0] != c {
      var j := IndexOf(s[1..], c);
      IndexOfFirst(s[1..], c);
      assert s[..j + 1] == [s[0]] + s[1..][..j];
    }
  }

  /** `s` without its trailing whitespace. */
  function TrimEnd(s: string): (r: string)
    ensures |r| <= |s| && r == s[..|r|]
    ensures r == [] || !IsSpace(r[|r| - 1])
  {
    if s != [] && IsSpace(s[|s| - 1]) then TrimEnd(s[..|s| - 1]) else s
  }

  /** Only whitespace is cut from the end. */
  lemma {:induction false} TrimEndOnlySpace(s: string)
    ensures forall k :: |TrimEnd(s)| <= k < |s| ==> IsSpace(s[k])
    decreases |s|
  {
    if s != [] && IsSpace(s[|s| - 1]) {
      TrimEndOnlySpace(s[..|s| - 1]);
    }
  }

  /** Python's `s.strip()`: `s` without leading and trailing whitespace. */
  function Strip(s: string): (r: string)
    ensures r == [] || (!IsSpace(r[0]) && !IsSpace(r[|r| - 1]))
  {
    var lo := SpanLen(s, Space);
    var r := TrimEnd(s[lo..]);
    assert r == [] || r[0] == s[lo];
    r
  }

  /** The first `c` of `pre + [c] + post` is the one after `pre` when `pre` has none. */
  lemma {:induction false} IndexOfSplit(pre: string, c: char, post: string)
    requires c !in pre
    ensures IndexOf(pre + [c] + post, c) == |pre|
    decreases |pre|
  {
    var s := pre + [c] + post;
    if pre != [] {
      assert s[1..] == pre[1..] + [c] + post;
      IndexOfSplit(pre[1..], c, post);
    }
  }

  /** What `strip` keeps is one contiguous slice of `s`, starting after the leading whitespace. */
  lemma {:induction false} StripSlice(s: string)
    ensures SpanLen(s, Space) + |Strip(s)| <= |s|
    ensures Strip(s) == s[SpanLen(s, Space)..SpanLen(s, Space) + |Strip(s)|]
  {
  }

  /** Only whitespace is cut, from either end. */
  lemma {:induction false} StripOnlySpace(s: string)
    ensures forall k :: 0 <= k < |s| && !(SpanLen(s, Space) <= k < SpanLen(s, Space) + |Strip(s)|) ==> IsSpace(s[k])
  {
    SpanLenPrefix(s, Space);
    TrimEndOnlySpace(s[SpanLen(s, Space)..]);
    StripSlice(s);
  }

  /** Python's `s.split(c)`: the pieces of `s` between occurrences of `c`. */
  function SplitOn(s: string, c: char): (r: seq<string>)
    ensures |r| >= 1
    ensures forall piece :: piece in r ==> c !in piece
    ensures Join(r, c) == s
    decreases |s|
  {
    var i := IndexOf(s, c);
    if i == |s| then [s]
    else
      var rest := SplitOn(s[i + 1..], c);
      IndexOfFirst(s, c);
      assert s == s[..i] + [c] + s[i + 1..];
      [s[..i]] + rest
  }

  /** Python's `c.join(pieces)`. */
  function Join(pieces: seq<string>, c: char): string
  {
    if pieces == [] then []
    else if |pieces| == 1 then pieces[0]
    else pieces[0] + [c] + Join(pieces[1..], c)
  }

  /** Python's `s.replace(c, '')`: `s` with every `c` removed, all else kept in order. */
  function RemoveChar(s: string, c: char): (r: string)
    ensures c !in r
    ensures |r| <= |s|
    ensures c !in s ==> r == s
  {
    if s == [] then []
    else (if s[0] == c then [] else [s[0]]) + RemoveChar(s[1..], c)
  }

  /** A run measured on `a + b` stops at the end of `a` when `a` lies in the class and `b` starts outside it. */
  lemma {:induction false} SpanLenAppend(a: string, b: string, cls: CharClass)
    requires forall k :: 0 <= k < |a| ==> InClass(a[k], cls)
    requires b == [] || !InClass(b[0], cls)
    ensures SpanLen(a + b, cls) == |a|
    decreases |a|
  {
    if a == [] {
      assert a + b == b;
    } else {
      assert (a + b)[1..] == a[1..] + b;
      SpanLenAppend(a[1..], b, cls);
    }
  }

  predicate AllSep(t: string) {
    forall k :: 0 <= k < |t| ==> IsSep(t[k])
  }

  /**
   * Python's `re.split(r'[,\s]+', s)`: the pieces of `s` between maximal runs
   * of commas and whitespace. A run at either end yields an empty piece there.
   */
  function Tokenize(s: string): (r: seq<string>)
    ensures |r| >= 1
    decreases |s|
  {
    var i := SpanLen(s, TokenChar);
    if i == |s| then [s]
    else
      assert InClass(s[i..][0], Sep);
      var j := i + SpanLen(s[i..], Sep);
      [s[..i]] + Tokenize(s[j..])
  }

  /** The separator runs `re.split` cuts at, in order. */
  function SepRuns(s: string): seq<string>
    decreases |s|
  {
    var i := SpanLen(s, TokenChar);
    if i == |s| then []
    else
      assert InClass(s[i..][0], Sep);
      var j := i + SpanLen(s[i..], Sep);
      [s[i..j]] + SepRuns(s[j..])
  }

  /** `pieces[0] + runs[0] + pieces[1] + … + runs[n - 1] + pieces[n]`. */
  function Weave(pieces: seq<string>, runs: seq<string>): string
    requires |pieces| == |runs| + 1
    decreases |runs|
  {
    if runs == [] then pieces[0] else pieces[0] + runs[0] + Weave(pieces[1..], runs[1..])
  }

  /**
   * `s` is the separator-free `pieces` with the non-empty separator runs
   * `runs` between them, and no piece but the first and the last is empty:
   * every run is then a maximal one.
   */
  predicate Cut(s: string, pieces: seq<string>, runs: seq<string>) {
    && |pieces| == |runs| + 1
    && Weave(pieces, runs) == s
    && (forall k :: 0 <= k < |pieces| ==> NoSep(pieces[k]))
    && (forall k :: 0 <= k < |runs| ==> runs[k] != [] && AllSep(runs[k]))
    && (forall k :: 0 < k < |runs| ==> pieces[k] != [])
  }

  /** `re.split` cuts `s` exactly at its maximal separator runs. */
  lemma {:induction false} TokenizeCut(s: string)
    ensures Cut(s, Tokenize(s), SepRuns(s))
    decreases |s|
  {
    var i := SpanLen(s, TokenChar);
    if i == |s| {
      SpanTokenChars(s);
      assert s[..i] == s;
    } else {
      var j := i + SpanLen(s[i..], Sep);
      FirstRunNonEmpty(s, i);
      TokenizeCut(s[j..]);
      TokenizeCutStep(s, i, j);
      CutThree(s, i, j);
      TokenizeAt(s, i, j);
      SepRunsAt(s, i, j);
    }
  }

  /** The first token and run in front of the cut of the rest make a cut of `s`. */
  lemma {:induction false} TokenizeCutStep(s: string, i: nat, j: nat)
    requires i == SpanLen(s, TokenChar) < |s| && j == i + SpanLen(s[i..], Sep)
    requires Cut(s[j..], Tokenize(s[j..]), SepRuns(s[j..]))
    ensures j <= |s| && Cut(s[..i] + s[i..j] + s[j..], [s[..i]] + Tokenize(s[j..]), [s[i..j]] + SepRuns(s[j..]))
  {
    var rest := s[j..];
    SpanTokenChars(s);
    FirstRunNonEmpty(s, i);
    SpanSepsAt(s, i, j);
    RestStartsWithToken(s, i, j);
    CutCons(s[..i], s[i..j], rest, Tokenize(rest), SepRuns(rest));
  }

  /** After a maximal separator run the next piece is not empty, unless it is the last one. */
  lemma {:induction false} RestStartsWithToken(s: string, i: nat, j: nat)
    requires i == SpanLen(s, TokenChar) < |s| && j == i + SpanLen(s[i..], Sep)
    ensures j <= |s| && (|SepRuns(s[j..])| >= 1 ==> Tokenize(s[j..])[0] != [])
  {
    var rest := s[j..];
    if |SepRuns(rest)| >= 1 {
      assert rest != [] && !IsSep(rest[0]);
      TokenizeFirst(rest);
    }
  }

  /** A separator-free head and a separator run put in front of a cut make a cut. */
  lemma {:induction false} CutCons(a: string, b: string, rest: string, ps: seq<string>, rs: seq<string>)
    requires Cut(rest, ps, rs) && NoSep(a) && b != [] && AllSep(b)
    requires |rs| >= 1 ==> ps[0] != []
    ensures Cut(a + b + rest, [a] + ps, [b] + rs)
  {
    var ps', rs' := [a] + ps, [b] + rs;
    assert ps'[1..] == ps && rs'[1..] == rs;
    assert forall k :: 0 < k < |ps'| ==> ps'[k] == ps[k - 1];
    assert forall k :: 0 < k < |rs'| ==> rs'[k] == rs[k - 1];
  }

  /** A cut with at least one run is its first piece and run followed by a cut of the rest. */
  lemma {:induction false} CutTail(s: string, pieces: seq<string>, runs: seq<string>)
    requires Cut(s, pieces, runs) && runs != []
    ensures s == pieces[0] + (runs[0] + Weave(pieces[1..], runs[1..]))
    ensures Cut(Weave(pieces[1..], runs[1..]), pieces[1..], runs[1..])
  {
    var ps, rs := pieces[1..], runs[1..];
    assert forall k :: 0 <= k < |ps| ==> ps[k] == pieces[k + 1];
    assert forall k :: 0 <= k < |rs| ==> rs[k] == runs[k + 1];
  }

  /** The rest after a run starts with no separator. */
  lemma {:induction false} CutStart(s: string, pieces: seq<string>, runs: seq<string>)
    requires Cut(s, pieces, runs) && (runs != [] ==> pieces[0] != [])
    ensures s == [] || !IsSep(s[0])
  {
    if runs != [] {
      assert s == pieces[0] + (runs[0] + Weave(pieces[1..], runs[1..]));
      assert s[0] == pieces[0][0];
    }
  }

  /** Where `Tokenize` cuts a string that is cut at `runs`: after its first piece and after its first run. */
  lemma {:induction false} CutSpans(s: string, pieces: seq<string>, runs: seq<string>)
    requires Cut(s, pieces, runs) && runs != []
    ensures SpanLen(s, TokenChar) == |pieces[0]| < |s|
    ensures SpanLen(s[|pieces[0]|..], Sep) == |runs[0]|
    ensures s[..|pieces[0]|] == pieces[0] && s[|pieces[0]|..|pieces[0]| + |runs[0]|] == runs[0]
    ensures s[|pieces[0]| + |runs[0]|..] == Weave(pieces[1..], runs[1..])
    ensures Cut(Weave(pieces[1..], runs[1..]), pieces[1..], runs[1..])
  {
    var a, b := pieces[0], runs[0];
    CutTail(s, pieces, runs);
    var rest := Weave(pieces[1..], runs[1..]);
    CutStart(rest, pieces[1..], runs[1..]);
    assert forall k :: 0 <= k < |a| ==> InClass(a[k], TokenChar);
    assert forall k :: 0 <= k < |b| ==> InClass(b[k], Sep);
    SpanLenAppend(a, b + rest, TokenChar);
    SpanLenAppend(b, rest, Sep);
    assert s[|a|..] == b + rest;
  }

  /** The cut is unique, so it determines `re.split`: pieces and runs are those of `Tokenize` and `SepRuns`. */
  lemma {:induction false} CutUnique(s: string, pieces: seq<string>, runs: seq<string>)
    requires Cut(s, pieces, runs)
    ensures pieces == Tokenize(s) && runs == SepRuns(s)
    decreases |runs|
  {
    if runs == [] {
      CutWhole(s, pieces);
    } else {
      CutTail(s, pieces, runs);
      CutUnique(Weave(pieces[1..], runs[1..]), pieces[1..], runs[1..]);
      CutUniqueStep(s, pieces, runs);
    }
  }

  /** If the rest of a cut is `re.split`'s, so is the whole. */
  lemma {:induction false} CutUniqueStep(s: string, pieces: seq<string>, runs: seq<string>)
    requires Cut(s, pieces, runs) && runs != []
    requires pieces[1..] == Tokenize(Weave(pieces[1..], runs[1..]))
    requires runs[1..] == SepRuns(Weave(pieces[1..], runs[1..]))
    ensures pieces == Tokenize(s) && runs == SepRuns(s)
  {
    CutSpans(s, pieces, runs);
    var i, j := |pieces[0]|, |pieces[0]| + |runs[0]|;
    TokenizeCons(s, i, j, pieces);
    SepRunsCons(s, i, j, runs);
  }

  /** A string with no separator is a single piece. */
  lemma {:induction false} CutWhole(s: string, pieces: seq<string>)
    requires Cut(s, pieces, [])
    ensures pieces == Tokenize(s) && SepRuns(s) == []
  {
    var a := pieces[0];
    assert forall k :: 0 <= k < |a| ==> InClass(a[k], TokenChar);
    SpanLenAppend(a, [], TokenChar);
    assert a + [] == s;
  }

  /** `Tokenize` of a string with a separator: its first piece, then the pieces of the rest after the first run. */
  lemma {:induction false} TokenizeCons(s: string, i: nat, j: nat, pieces: seq<string>)
    requires i == SpanLen(s, TokenChar) < |s| && j == i + SpanLen(s[i..], Sep)
    requires pieces != [] && pieces[0] == s[..i] && pieces[1..] == Tokenize(s[j..])
    ensures pieces == Tokenize(s)
  {
    TokenizeAt(s, i, j);
    assert pieces == [pieces[0]] + pieces[1..];
  }

  /** Where the first token ends and the first separator run ends, `Tokenize` cuts once and recurses. */
  lemma {:induction false} TokenizeAt(s: string, i: nat, j: nat)
    requires i == SpanLen(s, TokenChar) < |s| && j == i + SpanLen(s[i..], Sep)
    ensures Tokenize(s) == [s[..i]] + Tokenize(s[j..])
  {
  }

  /** `SepRuns` of a string with a separator: its first run, then the runs of the rest. */
  lemma {:induction false} SepRunsCons(s: string, i: nat, j: nat, runs: seq<string>)
    requires i == SpanLen(s, TokenChar) < |s| && j == i + SpanLen(s[i..], Sep)
    requires runs != [] && j <= |s| && runs[0] == s[i..j] && runs[1..] == SepRuns(s[j..])
    ensures runs == SepRuns(s)
  {
    SepRunsAt(s, i, j);
    assert runs == [runs[0]] + runs[1..];
  }

  /** A separator ends the first token, so the run after it is not empty. */
  lemma {:induction false} FirstRunNonEmpty(s: string, i: nat)
    requires i == SpanLen(s, TokenChar) < |s|
    ensures SpanLen(s[i..], Sep) >= 1
  {
    assert InClass(s[i..][0], Sep);
  }

  /** Where the first token ends and the first separator run ends, `SepRuns` keeps that run and recurses. */
  lemma {:induction false} SepRunsAt(s: string, i: nat, j: nat)
    requires i == SpanLen(s, TokenChar) < |s| && j == i + SpanLen(s[i..], Sep)
    ensures SepRuns(s) == [s[i..j]] + SepRuns(s[j..])
  {
  }

  /** The first piece is the longest separator-free prefix of `s`. */
  lemma {:induction false} TokenizeFirst(s: string)
    ensures |Tokenize(s)[0]| <= |s| && Tokenize(s)[0] == s[..|Tokenize(s)[0]|]
    ensures |Tokenize(s)[0]| == |s| || IsSep(s[|Tokenize(s)[0]|])
  {
    var i := SpanLen(s, TokenChar);
    if i == |s| {
      assert s[..i] == s;
    } else {
      assert InClass(s[i..][0], Sep);
    }
  }

  /** A string is the concatenation of its three slices at `i <= j`. */
  lemma {:induction false} CutThree(s: string, i: nat, j: nat)
    requires i <= j <= |s|
    ensures s == s[..i] + s[i..j] + s[j..]
  {
    assert s[..j] == s[..i] + s[i..j];
    assert s == s[..j] + s[j..];
  }

  lemma {:induction false} SpanTokenChars(s: string)
    ensures NoSep(s[..SpanLen(s, TokenChar)])
  {
    var n := SpanLen(s, TokenChar);
    SpanLenPrefix(s, TokenChar);
    forall k | 0 <= k < n ensures !IsSep(s[..n][k]) {
      assert InClass(s[k], TokenChar);
    }
  }

  lemma {:induction false} SpanSepsAt(s: string, i: nat, j: nat)
    requires i <= |s| && j == i + SpanLen(s[i..], Sep)
    ensures j <= |s| && AllSep(s[i..j])
  {
    var t := s[i..];
    SpanSeps(t);
    assert t[..SpanLen(t, Sep)] == s[i..j];
  }

  lemma {:induction false} SpanSeps(s: string)
    ensures AllSep(s[..SpanLen(s, Sep)])
  {
    var n := SpanLen(s, Sep);
    SpanLenPrefix(s, Sep);
    forall k | 0 <= k < n ensures IsSep(s[..n][k]) {
      assert InClass(s[k], Sep);
    }
  }

  /** Python's `c.upper()` on ASCII. */
  function UpperChar(c: char): (u: char)
    ensures !IsLower(u)
    ensures IsLower(c) ==> u as int == c as int - 32
    ensures !IsLower(c) ==> u == c
  {
    if IsLower(c) then (c as int - 32) as char else c
  }

  /** Python's `s.upper()` on ASCII: each character is upper-cased in place, all else is kept. */
  function Upper(s: string): (r: string)
    ensures |r| == |s|
    ensures forall k :: 0 <= k < |s| ==> r[k] == UpperChar(s[k])
  {
    if s == [] then []
    else
      var r := [UpperChar(s[0])] + Upper(s[1..]);
      assert forall k :: 1 <= k < |s| ==> r[k] == Upper(s[1..])[k - 1];
      r
  }

  /** The value of a run of decimal digits. */
  function DigitsValue(ds: string): nat
    requires AllDigits(ds)
  {
    if ds == [] then 0
    else DigitsValue(ds[..|ds| - 1]) * 10 + (ds[|ds| - 1] as int - '0' as int)
  }

  /** The decimal spelling of a natural number, without leading zeros. */
  function ShowNat(n: nat): (s: string)
    ensures |s| >= 1 && AllDigits(s)
    ensures DigitsValue(s) == n
  {
    var d := ['0' + (n % 10) as char];
    if n < 10 then d
    else
      var hi := ShowNat(n / 10);
      var s := hi + d;
      assert s[..|s| - 1] == hi;
      s
  }

  /** The decimal spelling of an integer, with a leading `-` when negative. */
  function ShowInt(n: int): string
  {
    if n < 0 then "-" + ShowNat(-n) else ShowNat(n)
  }

  /**
   * The value of a Python decimal literal body: digits, with single `_`
   * allowed between two digits (`1_000`). `None` for anything else, the empty
   * string included.
   */
  function DecimalValue(b: string): (r: Option<nat>)
    ensures r.Some? ==> |b| >= 1 && IsDigit(b[0]) && IsDigit(b[|b| - 1])
  {
    if b == [] || !IsDigit(b[|b| - 1]) then None
    else
      var d: nat := b[|b| - 1] as int - '0' as int;
      var init := b[..|b| - 1];
      if init == [] then Some(d)
      else
        var hi := if init[|init| - 1] == '_' then init[..|init| - 1] else init;
        var v :- DecimalValue(hi);
        assert b[0] == hi[0];
        Some(v * 10 + d)
  }

  /** A digit string is a decimal literal of its own value. */
  lemma {:induction false} DecimalValueShowNat(n: nat)
    ensures DecimalValue(ShowNat(n)) == Some(n)
  {
    var s := ShowNat(n);
    if n >= 10 {
      var hi := ShowNat(n / 10);
      assert s[..|s| - 1] == hi;
      assert IsDigit(hi[|hi| - 1]);
      DecimalValueShowNat(n / 10);
    }
  }

  /**
   * Python's `int(t)` on a token without whitespace: an optional sign followed
   * by a decimal literal. `None` is the `ValueError` raised on anything else.
   */
  function ParseInt(t: string): (r: Option<int>)
    ensures r.Some? ==> |t| >= 1 && (IsDigit(t[0]) || t[0] == '-' || t[0] == '+')
    ensures r.Some? && IsDigit(t[0]) ==> r.value >= 0
  {
    if |t| > 0 && (t[0] == '-' || t[0] == '+') then
      var v :- DecimalValue(t[1..]);
      var magnitude: int := v;
      Some(if t[0] == '-' then -magnitude else magnitude)
    else
      var v :- DecimalValue(t);
      Some(v)
  }

  /** Position `k` of a literal holds a digit, or a `_` with a digit on either side. */
  predicate GroupedDigitAt(b: string, k: int)
    requires 0 <= k < |b|
  {
    IsDigit(b[k]) || (b[k] == '_' && 0 < k < |b| - 1 && IsDigit(b[k - 1]) && IsDigit(b[k + 1]))
  }

  /** A Python decimal integer literal: digits, with single `_` allowed between two digits. */
  predicate DecimalLiteral(b: string) {
    |b| >= 1 && forall k :: 0 <= k < |b| ==> GroupedDigitAt(b, k)
  }

  /** `DecimalValue` accepts exactly the decimal literals, so any other character makes `int` raise. */
  lemma {:induction false} DecimalValueLiteral(b: string)
    ensures DecimalValue(b).Some? <==> DecimalLiteral(b)
  {
    DecimalValueChars(b);
    DecimalLiteralValue(b);
  }

  lemma {:induction false} DecimalValueChars(b: string)
    ensures DecimalValue(b).Some? ==> DecimalLiteral(b)
    decreases |b|
  {
    if DecimalValue(b).Some? && |b| > 1 {
      var init := b[..|b| - 1];
      var hi := if init[|init| - 1] == '_' then init[..|init| - 1] else init;
      assert DecimalValue(hi).Some?;
      DecimalValueChars(hi);
      forall k | 0 <= k < |b|
        ensures GroupedDigitAt(b, k)
      {
        if k < |hi| {
          assert GroupedDigitAt(hi, k);
          assert b[k] == hi[k];
          if !IsDigit(hi[k]) {
            assert b[k - 1] == hi[k - 1] && b[k + 1] == hi[k + 1];
          }
        } else if k < |b| - 1 {
          assert k == |b| - 2 && b[k] == '_';
          assert b[k - 1] == hi[|hi| - 1];
        }
      }
    }
  }

  lemma {:induction false} DecimalLiteralValue(b: string)
    ensures DecimalLiteral(b) ==> DecimalValue(b).Some?
    decreases |b|
  {
    if DecimalLiteral(b) {
      assert GroupedDigitAt(b, |b| - 1);
    }
    if DecimalLiteral(b) && |b| > 1 {
      assert GroupedDigitAt(b, |b| - 2);
      var init := b[..|b| - 1];
      var hi := if init[|init| - 1] == '_' then init[..|init| - 1] else init;
      assert |hi| >= 1;
      forall k | 0 <= k < |hi|
        ensures GroupedDigitAt(hi, k)
      {
        assert GroupedDigitAt(b, k);
        assert b[k] == hi[k];
        if !IsDigit(b[k]) {
          assert GroupedDigitAt(b, k + 1);
          assert b[k - 1] == hi[k - 1] && b[k + 1] == hi[k + 1];
        }
      }
      DecimalLiteralValue(hi);
    }
  }

  /** `int(t)` succeeds exactly when `t`, after an optional sign, is a decimal literal. */
  lemma {:induction false} ParseIntLiteral(t: string)
    ensures ParseInt(t).Some? <==> |t| >= 1 && DecimalLiteral(if t[0] == '-' || t[0] == '+' then t[1..] else t)
  {
    if |t| >= 1 {
      DecimalValueLiteral(if t[0] == '-' || t[0] == '+' then t[1..] else t);
    }
  }

  /** A hexadecimal spelling is no decimal literal: `int('0x1')` raises. */
  lemma {:induction false} ParseIntRejectsHex()
    ensures ParseInt("0x1") == None
  {
    ParseIntLiteral("0x1");
    assert !GroupedDigitAt("0x1", 1);
  }

  /** `int` reads back every decimal spelling: `int(str(n)) == n`. */
  lemma {:induction false} ParseIntShowInt(n: int)
    ensures ParseInt(ShowInt(n)) == Some(n)
  {
    var s := ShowNat(if n < 0 then -n else n);
    DecimalValueShowNat(if n < 0 then -n else n);
    if n < 0 {
      assert ShowInt(n) == "-" + s;
      assert ShowInt(n)[1..] == s;
    } else {
      assert ShowInt(n) == s;
      assert IsDigit(s[0]);
    }
  }

  /** A digit run, leading zeros included, is a decimal literal of its digit value. */
  lemma {:induction false} DecimalValueDigits(ds: string)
    requires |ds| >= 1 && AllDigits(ds)
    ensures DecimalValue(ds) == Some(DigitsValue(ds))
    decreases |ds|
  {
    if |ds| > 1 {
      var init := ds[..|ds| - 1];
      assert forall k :: 0 <= k < |init| ==> init[k] == ds[k];
      assert IsDigit(init[|init| - 1]);
      DecimalValueDigits(init);
    }
  }

  /** A single `_` between two digits does not change the value (`1_000` is `1000`). */
  lemma {:induction false} DecimalValueGrouped(a: string, b: string)
    requires DecimalValue(a).Some? && |b| >= 1 && AllDigits(b)
    ensures DecimalValue(a + "_" + b) == DecimalValue(a + b)
    decreases |b|
  {
    var b', c := b[..|b| - 1], b[|b| - 1];
    assert a + "_" + b == (a + "_" + b') + [c] && a + b == (a + b') + [c] by {
      assert b == b' + [c];
    }
    if |b| == 1 {
      DecimalValueGroupedLast(a, c);
    } else {
      assert forall k :: 0 <= k < |b'| ==> b'[k] == b[k];
      DecimalValueGrouped(a, b');
      DecimalValueSameSnoc(a + "_" + b', a + b', c);
    }
  }

  /** `a_d` reads as `ad`. */
  lemma {:induction false} DecimalValueGroupedLast(a: string, c: char)
    requires DecimalValue(a).Some? && IsDigit(c)
    ensures DecimalValue(a + "_" + [c]) == DecimalValue(a + [c])
  {
    assert (a + "_" + [c])[..|a| + 1] == a + "_";
    assert (a + "_")[..|a|] == a;
    assert (a + [c])[..|a|] == a;
  }

  /** Two literals of the same value that end in a digit keep the same value with one more digit. */
  lemma {:induction false} DecimalValueSameSnoc(x: string, y: string, c: char)
    requires IsDigit(c) && x != [] && y != [] && IsDigit(x[|x| - 1]) && IsDigit(y[|y| - 1])
    requires DecimalValue(x) == DecimalValue(y)
    ensures DecimalValue(x + [c]) == DecimalValue(y + [c])
  {
    assert (x + [c])[..|x|] == x;
    assert (y + [c])[..|y|] == y;
  }

  /** Two `_` in a row make the literal invalid (`1__0` raises). */
  lemma {:induction false} DecimalValueDoubleUnderscore(a: string, b: string)
    requires |b| >= 1 && AllDigits(b)
    ensures DecimalValue(a + "__" + b) == None
    decreases |b|
  {
    var s := a + "__" + b;
    if |b| == 1 {
      assert s[..|s| - 1] == a + "__";
      assert (a + "__")[..|a| + 1] == a + "_";
    } else {
      var b' := b[..|b| - 1];
      assert forall k :: 0 <= k < |b'| ==> b'[k] == b[k];
      assert s[..|s| - 1] == a + "__" + b';
      DecimalValueDoubleUnderscore(a, b');
    }
  }

  /** `int` reads a literal after `+` as itself and after `-` negated; a literal starting with a digit needs no sign. */
  lemma {:induction false} ParseIntSign(body: string)
    ensures ParseInt("+" + body) == if DecimalValue(body).Some? then Some(DecimalValue(body).value as int) else None
    ensures ParseInt("-" + body) == if DecimalValue(body).Some? then Some(-(DecimalValue(body).value as int)) else None
    ensures body != [] && IsDigit(body[0]) ==>
              ParseInt(body) == if DecimalValue(body).Some? then Some(DecimalValue(body).value as int) else None
  {
    assert ("+" + body)[1..] == body;
    assert ("-" + body)[1..] == body;
  }

  /** Digit runs, with or without a sign and with leading zeros, read as their value. */
  lemma {:induction false} ParseIntDigits(ds: string)
    requires |ds| >= 1 && AllDigits(ds)
    ensures ParseInt(ds) == Some(DigitsValue(ds) as int)
    ensures ParseInt("+" + ds) == Some(DigitsValue(ds) as int)
    ensures ParseInt("-" + ds) == Some(-(DigitsValue(ds) as int))
  {
    DecimalValueDigits(ds);
    ParseIntSign(ds);
  }
}

=== FILE: word.dfy ===
/**
 * The machine's 16-bit word: unsigned masking and two's-complement
 * reinterpretation (snx/word.py). Python's `v & 0xFFFF` on an arbitrary
 * (possibly negative) int is Dafny's Euclidean `v % 0x10000`.
 */
module Words {

  const WORD_BITS := 16
  const WORD_MASK := 0xFFFF
  const WORD_SIGN_BIT := 0x8000
  const WORD_MAX_SIGNED := 0x7FFF
  const WORD_MIN_SIGNED := -0x8000

  /** Number of distinct words, 2^WORD_BITS. */
  const WORD_MODULUS := WORD_MASK + 1

  /** Two integers denote the same word. */
  predicate SameWord(a: int, b: int) {
    (a - b) % WORD_MODULUS == 0
  }

  /** `word(v)`: the unsigned stored form of `v`, i.e. `v & WORD_MASK`. */
  function Word(v: int): (r: int)
    ensures 0 <= r <= WORD_MASK
    ensures SameWord(v, r)
  {
    v % WORD_MODULUS
  }

  /** `signed16(v)`: the two's-complement reading of the low 16 bits of `v`. */
  function Signed16(v: int): (r: int)
    ensures WORD_MIN_SIGNED <= r <= WORD_MAX_SIGNED
    ensures SameWord(v, r)
  {
    var w := v % WORD_MODULUS;
    if w >= WORD_SIGN_BIT then w - (WORD_MASK + 1) else w
  }

  /** `is_negative16(v)`: bit 15 of `v`, i.e. `(v & WORD_SIGN_BIT) != 0`. */
  predicate IsNegative16(v: int) {
    (v / WORD_SIGN_BIT) % 2 != 0
  }

  /** Within one residue class there is exactly one value in any window of WORD_MODULUS integers. */
  lemma {:induction false} UniqueInWindow(a: int, b: int, lo: int)
    requires lo <= a < lo + WORD_MODULUS && lo <= b < lo + WORD_MODULUS
    requires SameWord(a, b)
    ensures a == b
  {
    var d := a - b;
    assert -WORD_MODULUS < d < WORD_MODULUS;
    assert d % WORD_MODULUS == 0;
    assert d == WORD_MODULUS * (d / WORD_MODULUS);
  }

  /** SameWord is an equivalence relation (the part used below). */
  lemma {:induction false} SameWordTrans(a: int, b: int, c: int)
    requires SameWord(a, b) && SameWord(b, c)
    ensures SameWord(a, c)
  {
    var p := (a - b) / WORD_MODULUS;
    var q := (b - c) / WORD_MODULUS;
    assert a - b == WORD_MODULUS * p;
    assert b - c == WORD_MODULUS * q;
    assert a - c == WORD_MODULUS * (p + q);
  }

  lemma {:induction false} SameWordSym(a: int, b: int)
    requires SameWord(a, b)
    ensures SameWord(b, a)
  {
    var p := (a - b) / WORD_MODULUS;
    assert a - b == WORD_MODULUS * p;
    assert b - a == WORD_MODULUS * -p;
  }

  /** Two integers have the same stored form exactly when they denote the same word. */
  lemma {:induction false} WordEqIff(a: int, b: int)
    ensures Word(a) == Word(b) <==> SameWord(a, b)
  {
    if Word(a) == Word(b) {
      SameWordSym(b, Word(b));
      SameWordTrans(a, Word(a), b);
    }
    if SameWord(a, b) {
      SameWordSym(a, Word(a));
      SameWordTrans(Word(a), a, b);
      SameWordTrans(Word(a), b, Word(b));
      UniqueInWindow(Word(a), Word(b), 0);
    }
  }

  /** Masking is idempotent. */
  lemma {:induction false} WordIdempotent(v: int)
    ensures Word(Word(v)) == Word(v)
  {
    WordOfWordValue(Word(v));
  }

  /** A value already in the unsigned range is its own stored form. */
  lemma {:induction false} WordOfWordValue(v: int)
    requires 0 <= v <= WORD_MASK
    ensures Word(v) == v
  {
    UniqueInWindow(Word(v), v, 0);
  }

  /** A value already in the signed range is its own signed reading. */
  lemma {:induction false} Signed16OfSignedValue(v: int)
    requires WORD_MIN_SIGNED <= v <= WORD_MAX_SIGNED
    ensures Signed16(v) == v
  {
    SameWordSym(v, Signed16(v));
    UniqueInWindow(Signed16(v), v, WORD_MIN_SIGNED);
  }

  /** Wrap-around round trip: masking first does not change the signed reading. */
  lemma {:induction false} Signed16OfWord(v: int)
    ensures Signed16(Word(v)) == Signed16(v)
  {
    SameWordSym(Word(v), Signed16(Word(v)));
    SameWordTrans(v, Word(v), Signed16(Word(v)));
    SameWordSym(v, Signed16(v));
    SameWordSym(v, Signed16(Word(v)));
    SameWordTrans(Signed16(v), v, Signed16(Word(v)));
    UniqueInWindow(Signed16(v), Signed16(Word(v)), WORD_MIN_SIGNED);
  }

  /** Reading as signed and storing again gives back the stored form. */
  lemma {:induction false} WordOfSigned16(v: int)
    ensures Word(Signed16(v)) == Word(v)
  {
    SameWordSym(v, Signed16(v));
    WordEqIff(Signed16(v), v);
  }

  /** The sign bit is set exactly when the signed reading is negative. */
  lemma {:induction false} IsNegative16Iff(v: int)
    ensures IsNegative16(v) <==> Signed16(v) < 0
  {
    var q := v / WORD_MODULUS;
    var w := v % WORD_MODULUS;
    assert v == WORD_MODULUS * q + w;
    var h := w / WORD_SIGN_BIT;
    assert h == 0 || h == 1;
    assert w == WORD_SIGN_BIT * h + w % WORD_SIGN_BIT;
    assert v == WORD_SIGN_BIT * (2 * q + h) + w % WORD_SIGN_BIT;
    assert v / WORD_SIGN_BIT == 2 * q + h;
    assert (v / WORD_SIGN_BIT) % 2 == h;
  }
}

=== FILE: wrappers.dfy ===
/** Failure-compatible Option, used wherever the source can raise. */
module Wrappers {

  datatype Option<+T> = None | Some(value: T) {

    predicate IsFailure() {
      None?
    }

    function PropagateFailure<U>(): Option<U>
      requires None?
    {
      None
    }

    function Extract(): T
      requires Some?
    {
      value
    }
  }
}
